=== FILE: README.md ===
# NYC taxi trip cleaning, modelled in Dafny

This project models the data-cleaning core of the NYC taxi trip explorer backend in Dafny, and proves properties of that model.

It covers two pieces of Python:

- **The ETL cleaner** (`backend/etl/data_cleaning.py`). Every raw trip row is classified by a fixed sequence of checks:
  - timestamps;
  - duration, with the `trip_duration` column preferred over the timestamp difference;
  - pickup and dropoff coordinates against the NYC bounding box;
  - haversine distance;
  - speed;
  - manual duplicate detection through a set of row signatures.

  A row with no reasons goes to the cleaned list. Any other row goes to the excluded list, and its `reason` column holds the reasons joined with `;`. The three derived fields are attached to every record. The signature set is threaded through every row of every chunk of the input file.
- **The batch pipeline** (`backend/data_processing.py`, `process_data` and `detect_anomalies`):
  - drop rows missing a critical value, drop exact duplicates, then apply four range filters;
  - derive duration in minutes, distance and speed in mph;
  - run a z-score anomaly detector on the speeds;
  - build the `locations` table (the distinct pickup and dropoff points, numbered 1..n) and join its ids back onto the trips.

Modules follow the source's structure:

| module | models |
|---|---|
| `Cells` | a raw row as a map from column name to cell |
| `Geo` | `is_valid_coord`, the guard of `haversine_km` |
| `Signatures` | `make_signature` and the `seen_signatures` set |
| `Reasons` | reason codes, their tags and the `reason` column |
| `Classifier` | one iteration of the `process_chunk` loop |
| `Pipeline` | `process_chunk` as a fold, and the chunk loop of `main` |
| `Anomalies` | `detect_anomalies` |
| `Trips` | the cleaning steps of `process_data` |
| `Locations` | the location table and the merges |
| `Batch` | `process_data` end to end |

`Seqs` and `Wrappers` are shared helpers: filter, keep-first de-duplication and `Option`.

Design decisions:

- **Parsing happens before the model.** A cell holds its printed text, what `float()` gives for it (`Option<real>`) and what `pd.to_datetime(..., errors="coerce")` gives for it (`Option<int>` seconds). A missing column or a NaN is a `Null` cell.
- **Haversine is a function parameter.** The model does not fix the trigonometry: the haversine formula is passed in as a function value. The ETL cleaner takes it in km, the batch pipeline in miles.
- **The z-score test is squared.** Both sides of `|x - mean| / std > t` are squared, giving `(x - mean)^2 > t^2 * variance`. `Anomalies.ZScoreSquared` proves this is equivalent to the source's test whenever a positive `std` with `std * std == variance` exists.
- **The chunk loop is stated over any row judge.** It is proved for any function from a row and a signature set to a verdict, as long as that function records the row's signature. It is then instantiated with `Classify`.

Behaviour of the code worth knowing before reading the contracts:

- A `trip_duration` value that converts with `float()` is used whatever its sign. A non-positive value is flagged `nonpositive_duration`, and the timestamp fallback is not tried.
- A row with no usable duration column and an unparsable timestamp gets `invalid_datetime` and not `cannot_compute_duration`: the fallback needs both timestamps.
- The fallback `(dropoff - pickup).total_seconds()` fails only when the difference does not fit in a pandas Timedelta, a signed 64-bit count of nanoseconds (about 292 years either way). Then the row has no duration and gets `cannot_compute_duration` (`Classifier.CannotComputeDurationIff`, `Classifier.OverflowingDifference`).
- The duplicate signature reads the long coordinate column names only (`pickup_latitude`, ...). The coordinate checks fall back to the short names (`pickup_lat`, ...).

## Model

| member | source | states |
|---|---|---|
| `Cells.Get` | backend/etl/data_cleaning.py:87 | `row.get(column)`: the row's value when the column exists, otherwise a null; stated for the duration column by `Cells.DurationLookup`. |
| `Cells.DurationCell` | backend/etl/data_cleaning.py:87 | The `trip_duration` value; stated by `Cells.DurationLookup`. |
| `Cells.DurationLookup` | backend/etl/data_cleaning.py:87 | Definitional: it spells out the lookup and is proved by unfolding it. With the column present the value is read; without it the cell is a null that prints "None", so no duration is taken from the column. |
| `Cells.Timestamp` | backend/etl/data_cleaning.py:67-76 | A timestamp column parsed with `errors="coerce"` only when non-null; stated by `Cells.TimestampParsed`. |
| `Cells.TimestampParsed` | backend/etl/data_cleaning.py:67-76 | Definitional: it spells out the parse and is proved by unfolding it. A timestamp exists exactly when the column is present, non-null and coerces to a time, and it is that time. |
| `Cells.Coordinate` | backend/etl/data_cleaning.py:108-111 | A coordinate read by its long name, falling back to the short name; stated by `Cells.CoordinateLookup`. |
| `Cells.CoordinateLookup` | backend/etl/data_cleaning.py:108-111 | Definitional: it spells out the fallback and is proved by unfolding it. The long column wins when present. Otherwise the short column is read, and a row with neither reads as None. |
| `Geo.IsValidCoord` | backend/etl/data_cleaning.py:16-25 | True exactly when both values convert with `float()` and lie in the box, bounds included. The bounds are the doubles that the decimals 40.4774, 40.9176, -74.2591 and -73.7004 parse to, so a cell reading "40.9176" is on the edge and accepted. A value that does not convert gives false, not an error. |
| `Geo.BoundsAreNearestDoubles` | backend/etl/data_cleaning.py:16-17 | Each bound is a 53-bit integer over a power of two and lies within half a unit in the last place of the source's decimal, so it is the double Python holds for that constant. |
| `Geo.BoxIsInclusive` | backend/etl/data_cleaning.py:16-25 | The box corners are accepted. A step of any positive size past any edge is rejected. |
| `Geo.HaversineKm` | backend/etl/data_cleaning.py:27-40 | The distance is missing exactly when one of the four coordinates fails to convert. Otherwise it is the formula applied to the converted values in the order (lat1, lon1, lat2, lon2), which the call at :126 fills with pickup lat, pickup lon, dropoff lat, dropoff lon. |
| `Signatures.MakeSignature` | backend/etl/data_cleaning.py:46-56 | The seven-column signature of a row; its meaning is stated by `Signatures.SignatureEqualIff`. |
| `Signatures.SignatureEqualIff` | backend/etl/data_cleaning.py:46-56 | Two rows have the same signature exactly when the seven key columns print the same. |
| `Signatures.CheckAndRecord` | backend/etl/data_cleaning.py:147-151 | A signature is a duplicate exactly when it is already in the set. Afterwards the set is the old set plus the signature. It never shrinks, and the signature is recorded whatever else the row is flagged for. |
| `Classifier.CheckTimestamps` | backend/etl/data_cleaning.py:66-83 | `invalid_datetime` is flagged exactly when a timestamp is missing or unparsable. `nonpositive_duration_from_timestamps` is flagged exactly when both parsed and pickup >= dropoff. Nothing else is flagged, and at most one reason is added. |
| `Classifier.ResolveDuration` | backend/etl/data_cleaning.py:85-105 | A value of the column that converts is the duration. Otherwise, if both timestamps parsed, the difference is the duration when it fits in a Timedelta and there is none when it does not; with a timestamp missing there is none. `bad_trip_duration_value` is flagged exactly for a present value that fails `float()`. `nonpositive_duration` is flagged exactly when the resolved duration is <= 0. `cannot_compute_duration` is flagged exactly when the fallback difference overflows. The clauses are collected in the predicate `Classifier.DurationOutcome`. |
| `Classifier.OverflowingDifference` | backend/etl/data_cleaning.py:97-105 | With no `trip_duration`, pickup 1700-01-01 and dropoff 2100-01-01 give no duration and exactly `cannot_compute_duration`. |
| `Classifier.CheckCoordinate` | backend/etl/data_cleaning.py:113-121 | `missing_*` is flagged exactly when a component is null. `invalid_*` is flagged exactly when both are present and the box check fails. At most one of the two is flagged. |
| `Classifier.MeasureDistance` | backend/etl/data_cleaning.py:123-136 | A distance exists only when all four coordinates are present, and then it is the guarded haversine. `cannot_compute_distance` is flagged exactly when that fails. `bad_distance` is flagged exactly when the distance is <= 0. |
| `Classifier.MeasureSpeed` | backend/etl/data_cleaning.py:138-144 | A speed exists exactly when there is a distance and a positive duration. Then speed * duration = distance * 3600, in exact reals. `outlier_speed` is flagged exactly when the speed exceeds 200. |
| `Classifier.Classify` | backend/etl/data_cleaning.py:63-160 | For every reason code, the reason is in the list exactly when the reference predicate `Flagged` holds for it. The list is in check order with no repeats. The derived fields follow the duration, distance and speed rules. The signature set afterwards is the old set plus the row's signature. |
| `Classifier.ReasonsDetermined` | backend/etl/data_cleaning.py:63-151 | Any check-ordered list holding exactly the flagged reasons is the classifier's list. |
| `Classifier.TimestampReasonsExclusive` | backend/etl/data_cleaning.py:78-83 | `invalid_datetime` and `nonpositive_duration_from_timestamps` never occur together. |
| `Classifier.CoordinateReasonsExclusive` | backend/etl/data_cleaning.py:113-121 | For each trip end, `missing_*` and `invalid_*` never occur together. |
| `Classifier.CannotComputeDurationIff` | backend/etl/data_cleaning.py:97-105 | `cannot_compute_duration` is flagged exactly when the column gives no number, both timestamps parsed and their difference overflows a Timedelta. Such a row has no duration and no speed. |
| `Classifier.CannotComputeDistanceImpliesInvalid` | backend/etl/data_cleaning.py:113-128 | A failed distance comes with `invalid_pickup_coord` or `invalid_dropoff_coord`. |
| `Classifier.ClassifyDuplicate` | backend/etl/data_cleaning.py:146-151 | `duplicate` is flagged exactly when the row's signature is already in the set. |
| `Reasons.TagRoundTrip` | backend/etl/data_cleaning.py:79-149 | Every reason tag parses back to its reason and contains no `;`. |
| `Reasons.EncodeReasons` | backend/etl/data_cleaning.py:163 | The `;`-join of the reason tags; `Reasons.DecodeEncode` proves it decodes back to the reasons. |
| `Reasons.SplitJoin` | backend/etl/data_cleaning.py:163 | Splitting the `;`-join of separator-free parts on `;` gives the parts back. |
| `Reasons.DecodeEncode` | backend/etl/data_cleaning.py:162-163 | The `reason` column of an excluded record decodes to its reason list. |
| `Pipeline.ToRecord` | backend/etl/data_cleaning.py:153-166 | A record keeps the row and the derived fields whatever the outcome. It carries a `reason` exactly when some reason was found, and that `reason` decodes to the reason list. |
| `Pipeline.Step` | backend/etl/data_cleaning.py:63-166 | One pass of the loop body; `Pipeline.FoldSpec` states what a run of steps computes. |
| `Pipeline.Fold` | backend/etl/data_cleaning.py:63-168 | The loop as a left fold; specified by `Pipeline.FoldSpec`. |
| `Pipeline.ProcessChunk` | backend/etl/data_cleaning.py:58-168 | `process_chunk` with both lists empty; specified by `Pipeline.ProcessChunkSpec` and `Pipeline.ProcessChunkPartition`. |
| `Pipeline.FoldSpec` | backend/etl/data_cleaning.py:58-168 | Folding any signature-recording judge over a chunk gives the following. The clean records, in row order, are in `cleaned` and the flagged ones in `excluded`. Each row is judged against the signatures of everything before it. The final set holds every row's signature. |
| `Pipeline.ProcessChunkSpec` | backend/etl/data_cleaning.py:58-168 | `process_chunk` builds exactly one record per row, each classified against the signatures seen before it. Its two outputs are the order-preserving selections of the clean and the flagged records. |
| `Pipeline.ProcessChunkPartition` | backend/etl/data_cleaning.py:162-168 | \|cleaned\| + \|excluded\| = \|chunk\|. A cleaned record has no reason. An excluded record has a non-empty reason list. |
| `Pipeline.DuplicateIffEarlierTwin` | backend/etl/data_cleaning.py:146-151 | Row i is flagged `duplicate` exactly when its signature was seen before the chunk or belongs to an earlier row of the chunk. The first occurrence is never flagged `duplicate`. |
| `Pipeline.SeenAfterAppend` | backend/etl/data_cleaning.py:181-187 | Seeing one part of the input and then another leaves the same set as seeing both at once. |
| `Pipeline.RecordsAppend` | backend/etl/data_cleaning.py:181-189 | The records of `a + b` are those of `a` followed by those of `b`, judged with the set that `a` left. |
| `Pipeline.SplitChunk` | backend/etl/data_cleaning.py:179-189 | Processing two chunks in turn, with the set carried over, gives the concatenated outputs of processing them as one chunk. |
| `Pipeline.ChunkStep` | backend/etl/data_cleaning.py:185-189 | Processing one more chunk with the set the earlier rows left appends exactly its clean and excluded records to the totals, and leaves the set of all rows seen so far. |
| `Pipeline.Run` | backend/etl/data_cleaning.py:179-189 | The chunk loop's totals equal `process_chunk` of all chunks laid end to end, starting from an empty set. |
| `Anomalies.Mean` | backend/data_processing.py:9-10 | `sum(values) / n`: a list of equal values has that value as its mean. |
| `Anomalies.SumSqDiff` | backend/data_processing.py:11 | The sum of squared deviations is >= 0. It is 0 exactly when every value equals the mean. |
| `Anomalies.Variance` | backend/data_processing.py:9-12 | The population variance is >= 0. |
| `Anomalies.Anomalies` | backend/data_processing.py:6-15 | Empty input gives []. Zero variance gives []. A value is reported exactly when it is in the input, the variance is positive and (x - mean)^2 > t^2 * variance; a negative threshold reports every value. Each reported value occurs as often as in the input, so `len(anomalies)` is fixed, and the values keep their input order (a subsequence of the input). |
| `Seqs.FilterIsSubsequence` | backend/data_processing.py:14 | A list comprehension with a guard keeps the order of its input. |
| `Seqs.FilterMultiset` | backend/data_processing.py:14 | A guarded comprehension keeps every copy of a selected value and none of any other. |
| `Anomalies.ZScoreSquared` | backend/data_processing.py:13-14 | For std > 0 with std^2 = variance, \|(x - mean) / std\| > t holds exactly when the squared test holds. |
| `Anomalies.ZeroVarianceIffConstant` | backend/data_processing.py:9-14 | The variance of a non-empty list is 0 exactly when all its values are equal. |
| `Anomalies.ConstantHasNoAnomalies` | backend/data_processing.py:12-14 | A list of equal values has no anomalies at any threshold. |
| `Anomalies.SumLoop` | backend/data_processing.py:10 | The running total equals the sum. |
| `Anomalies.SumSqDiffLoop` | backend/data_processing.py:11 | The running total equals the sum of squared deviations. |
| `Anomalies.CollectLoop` | backend/data_processing.py:14 | The collected list is the in-order filter of the values by the outlier test. |
| `Anomalies.DetectAnomalies` | backend/data_processing.py:6-15 | The loop implementation returns exactly the anomaly list. |
| `Anomalies.SpikeIsAnomaly` | backend/data_processing.py:6-15 | For [10, 10, 10, 10, 100] at threshold 1, exactly the spike is reported. |
| `Anomalies.SpikeBelowDefaultThreshold` | backend/data_processing.py:58-61 | At the default threshold of 3 that spike is not reported. |
| `Trips.DropNa` | backend/data_processing.py:36-38 | Exactly the rows with all nine critical values are kept, each as often as in the input and in input order. |
| `Seqs.Dedup` | backend/data_processing.py:42 | Keep-first de-duplication: the same values as the input, no repeats, never longer. |
| `Trips.Clean` | backend/data_processing.py:36-49 | A row is kept exactly when it is in the input and valid: no critical value missing, 0 < passengers <= 6, 0 < duration < 7200 (fractional values included), both points in [40.5, 41.0] x [-74.5, -73.5] inclusive. No row is kept twice. |
| `Trips.CleanIsDedupOfValid` | backend/data_processing.py:38-49 | The chain of `dropna`, `drop_duplicates` and four filters equals the keep-first de-duplication of the valid rows. |
| `Seqs.DedupKeepsFirstOrder` | backend/data_processing.py:42 | De-duplication keeps each value and orders the kept values by their first occurrence. |
| `Seqs.DedupFilter` | backend/data_processing.py:42-49 | De-duplicating and then filtering gives the same result as filtering and then de-duplicating. |
| `Trips.CountsAsWritten` | backend/data_processing.py:37-43 | The printed "duplicates removed" count exceeds the true count by exactly the number of rows `dropna` dropped. The other two printed counts agree with the corrected ones. |
| `Trips.MissingRowCountedAsDuplicate` | backend/data_processing.py:37-43 | A single row missing its id is reported as one removed duplicate, though the corrected count is 0. |
| `Trips.Counts` | backend/data_processing.py:37-50 | The missing-value count is the input length less the rows after `dropna`. The duplicate count is the rows after `dropna` less those after de-duplication. The valid count is the number of rows `Clean` keeps. All are non-negative. The duplicate count is 0 exactly when the rows left after `dropna` are distinct. Dropped, duplicate and remaining rows add up to the input. The valid count is at most the remaining rows. |
| `Trips.DeriveMetrics` | backend/data_processing.py:52-55 | duration_min * 60 = trip_duration. The distance is the haversine of the trip's own points. speed_mph * trip_duration = distance * 3600. |
| `Trips.ValidIsMeasurable` | backend/data_processing.py:46-55 | Every row that passes the filters has a positive duration and all four coordinates, so its speed is defined. |
| `Trips.Speeds` | backend/data_processing.py:59 | `df['speed_mph'].tolist()`: one speed per metrics row, in row order. |
| `Trips.DeriveAll` | backend/data_processing.py:52-55 | One set of metrics per cleaned row, row by row. |
| `Locations.UniquePoints` | backend/data_processing.py:120-125 | The location points are pairwise distinct, and they are exactly the pickup and dropoff points. |
| `Locations.UniquePointsOfTrips` | backend/data_processing.py:120-125 | Every trip's two points are in the table, and every point in the table comes from some trip. |
| `Locations.UniquePointsFirstAppearance` | backend/data_processing.py:120-125 | The table equals the keep-first de-duplication of all pickup points followed by all dropoff points. |
| `Locations.Number` | backend/data_processing.py:127 | The ids lie in 1..n and two ids are equal exactly when they belong to the same row. |
| `Locations.BuildLocations` | backend/data_processing.py:120-127 | Row i has id i + 1. No point is listed twice. Every pickup and dropoff point of every trip is listed. |
| `Locations.BuildLocationsOrder` | backend/data_processing.py:120-127 | The table lists the points in order of first appearance among all pickup points followed by all dropoff points. |
| `Locations.BuildLocationsFromTrips` | backend/data_processing.py:120-125 | Every listed point is the pickup or the dropoff point of some trip. |
| `Locations.DuplicatedCount` | backend/data_processing.py:129 | The count of ids that repeat an earlier one is 0 exactly when the ids are pairwise distinct. |
| `Locations.NoDuplicateIdWarning` | backend/data_processing.py:128-130 | The duplicate-id warning never fires. |
| `Locations.LocationId` | backend/data_processing.py:135-138 | The lookup finds an id exactly when some location has the point, and that location has the point. |
| `Locations.Matches` | backend/data_processing.py:135-138 | A merge on a point meets exactly the ids of the locations at that point. |
| `Locations.MatchesOfDistinct` | backend/data_processing.py:135-138 | When no point is listed twice, a merge meets at most the one location the lookup finds. |
| `Locations.LeftMerge` | backend/data_processing.py:135-138 | A left merge never loses a row: one output row per match, or one with no id. `Locations.LeftMergeOnUniqueKeys` pins it down for a table without repeated points. |
| `Locations.MapLocations` | backend/data_processing.py:135-138 | The pickup merge followed by the dropoff merge, never fewer rows than trips; `Locations.EveryTripMapped` states what it gives for the location table. |
| `Locations.LeftMergeOnUniqueKeys` | backend/data_processing.py:135-138 | Against a table that lists each point once, a left merge neither adds nor drops rows. Row i gets exactly the id of its own key. |
| `Locations.EveryTripMapped` | backend/data_processing.py:134-139 | Every cleaned trip comes out of both merges once, in order, with a pickup and a dropoff id. Each id names the location at exactly that trip's point. |
| `Locations.SameIdIffSamePoint` | backend/data_processing.py:125-138 | Two listed points get the same id exactly when they are the same point. |
| `Batch.MeasureClean` | backend/data_processing.py:52-55 | Every cleaned row can be measured, and its metrics are that row's `DeriveMetrics`. |
| `Batch.SpeedAnomalies` | backend/data_processing.py:58-61 | The result is `detect_anomalies` of the speed column at threshold 3. Every reported anomaly is the speed of some kept row, and there are no more anomalies than rows. |
| `Batch.Locate` | backend/data_processing.py:120-138 | The location table is the one built from the kept trips. The merged rows are the two merges against it: one per trip, each carrying the ids of the trip's own points. |
| `Batch.ProcessData` | backend/data_processing.py:28-139 | The kept rows are exactly the valid input rows, with no repeats. Each has its own metrics and is joined to the ids of its own two points. The anomalies are `detect_anomalies` of the kept rows' speeds at threshold 3. The location table is `BuildLocations` of the kept rows, so ids 1..n, no repeated point, in first-appearance order. The counts are `Trips.Counts` of the input; the valid count is the number of kept rows, and the missing-value and duplicate counts add up to the duplicate count the source prints. The excluded count is the input less the kept rows. |

## Left out

- File and database I/O are not modelled. This covers:
  - CSV reading and writing, including the chunked reader (chunks arrive as a sequence of rows whose cells are already read). `pd.read_csv(..., chunksize=100000)` infers each column's type chunk by chunk. A `passenger_count` of 1 prints as "1" in a chunk without missing values in that column and as "1.0" in a chunk with one, so two identical trips in different chunks can get different `make_signature` texts. `Pipeline.SplitChunk` therefore holds for the cells as given to each chunk, not for the raw file;
  - path setup and `os.chdir`;
  - the error early-returns and the output directory of `main`;
  - the placeholder `excluded_records.csv`;
  - the SQLite DDL and `to_sql` loading;
  - the progress prints other than the cleaning counts.
- `backend/database.py`, `backend/database/insert_data.py`, the Flask apps and routes, the SQL query strings and the frontend scripts are not part of this model. They are HTTP, SQL or UI glue around the core.
- The haversine trigonometry (`sin`, `cos`, `atan2`, `sqrt` on floats) is a function parameter. Properties that depend on its values, such as symmetry or zero distance for equal points, are not claimed.
- Text parsing by `float()` and `pd.to_datetime` is not modelled. A cell carries the parse results. Timestamps are whole seconds, so sub-second differences are not represented, and the Timedelta range is checked on whole seconds.
- `Pipeline.Run`: does not model the rows on which `process_chunk` raises. In the source such an exception leaves the chunk loop, and `main` prints it and returns without writing any output. Such rows are:
  - an infinite coordinate. `inf` passes `pd.notnull`, `is_valid_coord` flags it invalid, and then `sin` in `haversine_km` raises `ValueError`. Cells carry finite reals, so the model cannot represent this row;
  - one timezone-aware and one naive timestamp, where `pickup >= dropoff` raises `TypeError`. Timestamps are timezone-naive seconds, so the model cannot represent this row either;
  - finite coordinates so large that a difference overflows, for example a `pickup_latitude` of 1e308 and a `dropoff_latitude` of -1e308. `lat2 - lat1` at backend/etl/data_cleaning.py:36 becomes `-inf`, and `sin` at :38 raises. The model does represent this row. Its haversine parameter returns a number, so the row gets a record where the source aborts.

  `Pipeline.ProcessChunkPartition` and `Pipeline.Run` promise a record for every row of their input, including the overflowing one.
- `Geo.IsValidCoord`: `inf`, `-inf` and `nan` values that `float()` accepts are not represented, because cells carry finite reals. The source rejects them all, since every comparison of such a value with the bounds is false.
- `Classifier.MeasureSpeed`: divides exact reals. The rounding of Python's two float divisions is not modelled, so the model can disagree at exactly 200 km/h. A distance of the double nearest 0.1 km over a `trip_duration` of "1.8" s gives a float speed of exactly 200.0, which the source does not flag. The exact quotient is slightly above 200, so the model flags `outlier_speed`.
- `Classifier.Classify`: inherits the exact division of `Classifier.MeasureSpeed`, so its `outlier_speed` reason can differ from the source's at the 200 km/h threshold. It also inherits the unrepresented `inf` and `nan` coordinates of `Geo.IsValidCoord`.
- `Anomalies.Anomalies`: computed in exact real arithmetic. Floating-point rounding of the mean, the variance and the square root is not modelled. The `sqrt` is replaced by the equivalent squared comparison.
- `Trips.DeriveMetrics`: exact real division. Floating-point rounding of the speed is not modelled.
- `Batch.ProcessData`: reports the corrected duplicate count of `Trips.Counts`, not the figure printed at backend/data_processing.py:43; the contract states that the printed figure is the sum of the corrected missing-value and duplicate counts (see "## Findings").
- `Batch.ProcessData`: the `trip_duration_min`, `trip_distance` and `speed_mph` columns are kept in a parallel sequence of metrics, not as extra columns of the trip rows that are merged.
- pandas NaN handling is reduced to `None`:
  - comparisons with a missing value are false;
  - `drop_duplicates` and `merge` treat two missing values as equal, which `Option` equality gives.

  NaN values that survive `float()` as numbers are not distinguished from missing ones.

## Findings

| source | as written | input that shows it | evidently intended | confidence | as-written member | corrected member |
|---|---|---|---|---|---|---|
| backend/data_processing.py:43 | The "Removed N duplicate rows" message computes N as `original_len - len(df)` after `drop_duplicates`. The rows already dropped by `dropna` are therefore counted as duplicates too. | A one-row file whose `id` is missing: `dropna` removes the row, and the message reports 1 duplicate removed although there were no duplicates. | N is the number of rows `drop_duplicates` removed: the length before that step minus the length after it. The count is 0 exactly when the rows left after `dropna` are distinct. | not executed; high (the dropna count printed just before uses the same baseline) | `Trips.CountsAsWritten`, `Trips.MissingRowCountedAsDuplicate` | `Trips.Counts` |

=== FILE: anomalies.dfy ===
/**
 * The hand-written z-score anomaly detector of the batch pipeline
 * (backend/data_processing.py, detect_anomalies). Values are exact reals;
 * the square root is never taken: `|x - mean| / std > t` is decided as
 * `(x - mean)^2 > t^2 * variance`, which is the same test whenever
 * std = sqrt(variance) > 0.
 */
module Anomalies {
  import opened Seqs

  /** The threshold `process_data` uses (the parameter's default). */
  const DefaultThreshold: real := 3.0

  function Abs(x: real): real { if x < 0.0 then -x else x }

  /** `sum(values)`. */
  function Sum(xs: seq<real>): real
    decreases |xs|
  {
    if |xs| == 0 then 0.0 else Sum(xs[..|xs| - 1]) + xs[|xs| - 1]
  }

  /** `sum(values) / n`: the mean of equal values is that value. */
  function Mean(xs: seq<real>): (m: real)
    requires |xs| > 0
    ensures (forall i :: 0 <= i < |xs| ==> xs[i] == xs[0]) ==> m == xs[0]
  {
    EqualValuesSum(xs);
    Sum(xs) / |xs| as real
  }

  lemma EqualValuesSum(xs: seq<real>)
    requires |xs| > 0
    ensures (forall i :: 0 <= i < |xs| ==> xs[i] == xs[0]) ==> Sum(xs) == |xs| as real * xs[0]
  {
    if forall i :: 0 <= i < |xs| ==> xs[i] == xs[0] {
      SumOfConstant(xs, xs[0]);
    }
  }

  /** A product; the algebra lemmas below are stated about it. */
  function Mul(a: real, b: real): real { a * b }

  /** `x ** 2`. */
  function Sq(x: real): real { Mul(x, x) }

  lemma MulPositive(a: real, b: real)
    requires a > 0.0 && b > 0.0
    ensures Mul(a, b) > 0.0
  {
  }

  lemma MulSub(a: real, b: real, c: real)
    ensures Mul(a, c) - Mul(b, c) == Mul(a - b, c)
  {
  }

  lemma MulComm(a: real, b: real)
    ensures Mul(a, b) == Mul(b, a)
  {
  }

  lemma MulNeg(a: real, b: real)
    ensures Mul(-a, -b) == Mul(a, b)
  {
  }

  lemma MulZero(a: real)
    ensures Mul(a, 0.0) == 0.0
  {
  }

  lemma SqMul(a: real, b: real)
    ensures Sq(a) * Sq(b) == Sq(a * b)
  {
  }

  /** Dividing by a positive number and comparing is comparing against the product. */
  lemma DivGreater(a: real, s: real, t: real)
    requires s > 0.0
    ensures a / s > t <==> a > Mul(t, s)
  {
    var q := a / s;
    assert Mul(q, s) == a;
    if q > t {
      MulPositive(q - t, s);
      MulSub(q, t, s);
    } else if q < t {
      MulPositive(t - q, s);
      MulSub(t, q, s);
    }
  }

  /** A square is never negative, and is zero only at zero. */
  lemma Square(d: real)
    ensures Sq(d) >= 0.0
    ensures d != 0.0 ==> Sq(d) > 0.0
    ensures d == 0.0 ==> Sq(d) == 0.0
  {
    if d > 0.0 {
      MulPositive(d, d);
    } else if d < 0.0 {
      MulPositive(-d, -d);
      MulNeg(d, d);
    } else {
      MulZero(d);
    }
  }

  /** Squaring keeps the order of non-negative values. */
  lemma SquareMonotone(a: real, b: real)
    requires a > b >= 0.0
    ensures Sq(a) > Sq(b)
  {
    MulSub(a, b, a);
    MulPositive(a - b, a);
    MulComm(b, a);
    MulSub(a, b, b);
    if b > 0.0 {
      MulPositive(a - b, b);
    } else {
      MulZero(a - b);
    }
  }

  /** `sum((x - mean) ** 2 for x in values)`: zero exactly when every value equals `m`. */
  function SumSqDiff(xs: seq<real>, m: real): (r: real)
    ensures r >= 0.0
    ensures r == 0.0 <==> forall i :: 0 <= i < |xs| ==> xs[i] == m
    decreases |xs|
  {
    if |xs| == 0 then 0.0
    else
      var init := xs[..|xs| - 1];
      var d := xs[|xs| - 1] - m;
      assert forall i :: 0 <= i < |init| ==> init[i] == xs[i];
      assert (forall i :: 0 <= i < |xs| ==> xs[i] == m) <==>
        (forall i :: 0 <= i < |init| ==> init[i] == m) && d == 0.0;
      Square(d);
      SumSqDiff(init, m) + Sq(d)
  }

  /** The population variance, `sum_sq_diff / n`. */
  function Variance(xs: seq<real>): (v: real)
    requires |xs| > 0
    ensures v >= 0.0
  {
    SumSqDiff(xs, Mean(xs)) / |xs| as real
  }

  /**
   * The z-score test, squared: true when `x` lies more than `t` standard
   * deviations from the mean. A negative threshold lets every value through.
   */
  predicate Exceeds(x: real, mean: real, variance: real, t: real) {
    t < 0.0 || Sq(x - mean) > Sq(t) * variance
  }

  function Outlier(mean: real, variance: real, t: real): real -> bool {
    x => Exceeds(x, mean, variance, t)
  }

  /**
   * `detect_anomalies(values, threshold)`: nothing for an empty list or a
   * zero variance; otherwise, in their original order and with every
   * repeat, the values whose z-score exceeds the threshold.
   */
  function Anomalies(xs: seq<real>, t: real): (r: seq<real>)
    ensures |xs| == 0 ==> r == []
    ensures |xs| > 0 && Variance(xs) == 0.0 ==> r == []
    ensures forall x :: x in r <==>
      x in xs && Variance(xs) > 0.0 && Exceeds(x, Mean(xs), Variance(xs), t)
    ensures forall x ::
      multiset(r)[x] == if |xs| > 0 && Variance(xs) > 0.0 && Exceeds(x, Mean(xs), Variance(xs), t)
        then multiset(xs)[x] else 0
    ensures Subsequence(r, xs)
    ensures |r| <= |xs|
  {
    if |xs| == 0 then []
    else
      var m := Mean(xs);
      var v := Variance(xs);
      if v > 0.0 then
        var r := Filter(xs, Outlier(m, v, t));
        FilterIsSubsequence(xs, Outlier(m, v, t));
        forall x
          ensures multiset(r)[x] == if Exceeds(x, m, v, t) then multiset(xs)[x] else 0
        {
          FilterMultiset(xs, Outlier(m, v, t), x);
        }
        r
      else []
  }

  /**
   * With std = sqrt(variance) > 0, the source's test `abs((x - mean) / std) > t`
   * and the squared test agree for every threshold.
   */
  lemma ZScoreSquared(x: real, mean: real, variance: real, std: real, t: real)
    requires std > 0.0 && Sq(std) == variance
    ensures Abs((x - mean) / std) > t <==> Exceeds(x, mean, variance, t)
  {
    var d := x - mean;
    var a := Abs(d);
    assert Abs(d / std) == a / std;
    DivGreater(a, std, t);
    assert Sq(a) == Sq(d) by {
      if d < 0.0 {
        MulNeg(d, d);
      }
    }
    if t >= 0.0 {
      var b := Mul(t, std);
      assert b >= 0.0 by {
        if t > 0.0 {
          MulPositive(t, std);
        }
      }
      SqMul(t, std);
      if a > b {
        SquareMonotone(a, b);
      } else if a < b {
        SquareMonotone(b, a);
      }
    }
  }

  lemma {:induction false} SumOfConstant(xs: seq<real>, c: real)
    requires forall i :: 0 <= i < |xs| ==> xs[i] == c
    ensures Sum(xs) == |xs| as real * c
    decreases |xs|
  {
    if |xs| > 0 {
      var init := xs[..|xs| - 1];
      assert forall i :: 0 <= i < |init| ==> init[i] == xs[i];
      SumOfConstant(init, c);
    }
  }

  lemma {:induction false} SumSqDiffOfConstant(xs: seq<real>, c: real, m: real)
    requires forall i :: 0 <= i < |xs| ==> xs[i] == c
    ensures SumSqDiff(xs, m) == |xs| as real * Sq(c - m)
    decreases |xs|
  {
    if |xs| > 0 {
      var init := xs[..|xs| - 1];
      assert forall i :: 0 <= i < |init| ==> init[i] == xs[i];
      SumSqDiffOfConstant(init, c, m);
    }
  }

  /** The variance is zero exactly when all values are equal. */
  lemma ZeroVarianceIffConstant(xs: seq<real>)
    requires |xs| > 0
    ensures Variance(xs) == 0.0 <==> forall i, j :: 0 <= i < |xs| && 0 <= j < |xs| ==> xs[i] == xs[j]
  {
    var n := |xs| as real;
    assert Variance(xs) == 0.0 <==> SumSqDiff(xs, Mean(xs)) == 0.0 by {
      assert SumSqDiff(xs, Mean(xs)) == Variance(xs) * n;
    }
    if forall i, j :: 0 <= i < |xs| && 0 <= j < |xs| ==> xs[i] == xs[j] {
      SumOfConstant(xs, xs[0]);
      assert Mean(xs) == xs[0];
    }
  }

  /** An all-equal input, and so any zero-variance input, has no anomalies. */
  lemma ConstantHasNoAnomalies(xs: seq<real>, t: real)
    requires forall i, j :: 0 <= i < |xs| && 0 <= j < |xs| ==> xs[i] == xs[j]
    ensures Anomalies(xs, t) == []
  {
    if |xs| > 0 {
      ZeroVarianceIffConstant(xs);
    }
  }

  method SumLoop(values: seq<real>) returns (total: real)
    ensures total == Sum(values)
  {
    total := 0.0;
    for i := 0 to |values|
      invariant total == Sum(values[..i])
    {
      assert values[..i + 1][..i] == values[..i];
      total := total + values[i];
    }
    assert values[..|values|] == values;
  }

  method SumSqDiffLoop(values: seq<real>, mean: real) returns (total: real)
    ensures total == SumSqDiff(values, mean)
  {
    total := 0.0;
    for i := 0 to |values|
      invariant total == SumSqDiff(values[..i], mean)
    {
      assert values[..i + 1][..i] == values[..i];
      total := total + (values[i] - mean) * (values[i] - mean);
    }
    assert values[..|values|] == values;
  }

  method CollectLoop(values: seq<real>, mean: real, variance: real, threshold: real) returns (kept: seq<real>)
    ensures kept == Filter(values, Outlier(mean, variance, threshold))
  {
    kept := [];
    for i := 0 to |values|
      invariant kept == Filter(values[..i], Outlier(mean, variance, threshold))
    {
      assert values[..i + 1] == values[..i] + [values[i]];
      FilterAppend(values[..i], [values[i]], Outlier(mean, variance, threshold));
      if Exceeds(values[i], mean, variance, threshold) {
        kept := kept + [values[i]];
      }
    }
    assert values[..|values|] == values;
  }

  /**
   * `detect_anomalies` as the source runs it: one pass for the sum, one for
   * the squared deviations, one to collect the values over the threshold.
   */
  method DetectAnomalies(values: seq<real>, threshold: real) returns (anomalies: seq<real>)
    ensures anomalies == Anomalies(values, threshold)
  {
    if |values| == 0 {
      return [];
    }
    var n := |values| as real;
    var total := SumLoop(values);
    var mean := total / n;
    var sumSqDiff := SumSqDiffLoop(values, mean);
    var variance := sumSqDiff / n;
    if variance <= 0.0 {
      return [];
    }
    anomalies := CollectLoop(values, mean, variance, threshold);
  }

  /** Mean and variance of four 10s and one 100. */
  lemma SpikeMoments(xs: seq<real>)
    requires xs == [10.0, 10.0, 10.0, 10.0, 100.0]
    ensures Mean(xs) == 28.0 && Variance(xs) == 1296.0
  {
    var init := xs[..4];
    assert forall i :: 0 <= i < |init| ==> init[i] == 10.0;
    SumOfConstant(init, 10.0);
    assert Sum(xs) == 140.0;
    SumSqDiffOfConstant(init, 10.0, 28.0);
    assert SumSqDiff(xs, 28.0) == 6480.0;
  }

  /** A single spike among equal values is caught at threshold 1. */
  lemma SpikeIsAnomaly()
    ensures Anomalies([10.0, 10.0, 10.0, 10.0, 100.0], 1.0) == [100.0]
  {
    var xs := [10.0, 10.0, 10.0, 10.0, 100.0];
    SpikeMoments(xs);
    var p := Outlier(28.0, 1296.0, 1.0);
    assert xs == xs[..4] + [100.0];
    FilterAppend(xs[..4], [100.0], p);
    assert forall x :: x in xs[..4] ==> !p(x);
    assert Filter(xs[..4], p) == [];
    assert Filter([100.0], p) == [100.0] + Filter([100.0][1..], p);
  }

  /**
   * At the default threshold of 3 the same five values yield nothing: the
   * spike is only two standard deviations out.
   */
  lemma SpikeBelowDefaultThreshold()
    ensures Anomalies([10.0, 10.0, 10.0, 10.0, 100.0], DefaultThreshold) == []
  {
    var xs := [10.0, 10.0, 10.0, 10.0, 100.0];
    SpikeMoments(xs);
    var p := Outlier(28.0, 1296.0, 3.0);
    assert forall x :: x in xs ==> !p(x);
  }
}

=== FILE: batch.dfy ===
/**
 * The batch run of backend/data_processing.py, process_data, without its
 * file and database I/O: clean, derive, detect speed anomalies, build the
 * location table and join it back.
 */
module Batch {
  import opened Wrappers
  import opened Seqs
  import opened Anomalies
  import opened Trips
  import opened Locations

  /** What process_data writes out, as values. */
  datatype Outcome = Outcome(
    counts: CleanCounts,
    cleaned: seq<Trip>,
    metrics: seq<Metrics>,
    anomalies: seq<real>,
    locations: seq<Location>,
    mapped: seq<(WithPickup, Option<int>)>,
    excluded: int)

  /** Every row the filters keep can be measured. */
  lemma CleanIsMeasurable(trips: seq<Trip>)
    ensures forall i :: 0 <= i < |Clean(trips)| ==> Measurable(Clean(trips)[i])
  {
    var cleaned := Clean(trips);
    forall i | 0 <= i < |cleaned|
      ensures Measurable(cleaned[i])
    {
      assert cleaned[i] in cleaned;
      ValidIsMeasurable(cleaned[i]);
    }
  }

  /** The derived columns of the cleaned frame. */
  function MeasureClean(miles: MilesBetween, trips: seq<Trip>): (ms: seq<Metrics>)
    ensures |ms| == |Clean(trips)|
    ensures forall i :: 0 <= i < |ms| ==>
      Measurable(Clean(trips)[i]) && ms[i] == DeriveMetrics(miles, Clean(trips)[i])
  {
    CleanIsMeasurable(trips);
    DeriveAll(miles, Clean(trips))
  }

  /**
   * `detect_anomalies(speed_values)` at the default threshold of 3: the
   * anomalies are speeds of kept rows.
   */
  function SpeedAnomalies(ms: seq<Metrics>): (r: seq<real>)
    ensures r == Anomalies.Anomalies(Speeds(ms), DefaultThreshold)
    ensures forall x :: x in r ==> exists i :: 0 <= i < |ms| && ms[i].speedMph == x
    ensures |r| <= |ms|
  {
    var speeds := Speeds(ms);
    var r := Anomalies.Anomalies(speeds, DefaultThreshold);
    forall x | x in r
      ensures exists i :: 0 <= i < |ms| && ms[i].speedMph == x
    {
      var i := IndexOf(speeds, x);
      assert ms[i].speedMph == x;
    }
    r
  }

  /**
   * The `locations` table built from the kept trips and the trips after
   * both merges: one merged row per trip, carrying the ids of its own points.
   */
  function Locate(cleaned: seq<Trip>): (r: (seq<Location>, seq<(WithPickup, Option<int>)>))
    ensures r.0 == BuildLocations(cleaned)
    ensures r.1 == MapLocations(cleaned, r.0)
    ensures |r.1| == |cleaned|
    ensures forall i :: 0 <= i < |cleaned| ==> MappedRow(r.0, cleaned[i], r.1[i])
  {
    var locations := BuildLocations(cleaned);
    EveryTripMapped(cleaned);
    (locations, MapLocations(cleaned, locations))
  }

  /**
   * Every kept row is valid and measured; the anomalies are the z-score
   * outliers among the speeds of the kept rows; every kept row is joined
   * to the ids of its own two points; the excluded count is the input less
   * the kept rows. The counts are the corrected ones (`Counts`): the
   * duplicate count the source prints also includes the rows dropped for
   * missing values.
   */
  function ProcessData(miles: MilesBetween, trips: seq<Trip>): (o: Outcome)
    ensures forall t :: t in o.cleaned <==> t in trips && Valid(t)
    ensures Distinct(o.cleaned)
    ensures |o.metrics| == |o.cleaned| == |o.mapped|
    ensures forall i :: 0 <= i < |o.cleaned| ==>
      Measurable(o.cleaned[i]) && o.metrics[i] == DeriveMetrics(miles, o.cleaned[i])
    ensures o.anomalies == Anomalies.Anomalies(Speeds(o.metrics), DefaultThreshold)
    ensures forall x :: x in o.anomalies ==> exists i :: 0 <= i < |o.metrics| && o.metrics[i].speedMph == x
    ensures forall i :: 0 <= i < |o.cleaned| ==> MappedRow(o.locations, o.cleaned[i], o.mapped[i])
    ensures o.locations == BuildLocations(o.cleaned)
    ensures o.counts == Counts(trips)
    ensures o.counts.valid == |o.cleaned|
    ensures o.counts.droppedMissing + o.counts.removedDuplicates == CountsAsWritten(trips).removedDuplicates
    ensures o.excluded == |trips| - |o.cleaned| >= 0
  {
    var cleaned := Clean(trips);
    var metrics := MeasureClean(miles, trips);
    var located := Locate(cleaned);
    Outcome(Counts(trips), cleaned, metrics, SpeedAnomalies(metrics), located.0, located.1,
      |trips| - |cleaned|)
  }
}

=== FILE: cells.dfy ===
/**
 * Raw ETL rows (backend/etl/data_cleaning.py). A row is what pandas hands
 * the loop: a mapping from column name to value. Parsing is not modelled;
 * each present value carries the results the source's parsers would give.
 */
module Cells {
  import opened Wrappers

  /**
   * One value of a raw row.
   * - `Null`: None, NaN or NaT, i.e. `pd.isnull` holds; `text` is what
   *   `str()` prints for it ("None", "nan", "NaT").
   * - `Val`: a present value; `num` is the result of `float(value)` (None
   *   when that raises), `time` the result of
   *   `pd.to_datetime(value, errors="coerce")` in seconds (None for NaT).
   */
  datatype Cell =
    | Null(text: string)
    | Val(text: string, num: Option<real>, time: Option<int>)

  type Row = map<string, Cell>

  /** `row.get(column)`: a column the row does not have reads as None. */
  function Get(row: Row, column: string): Cell {
    if column in row then row[column] else Null("None")
  }

  /** `float(value)`. On a null value it raises or gives NaN; either way no usable number. */
  function AsFloat(c: Cell): Option<real> {
    match c
    case Null(_) => None
    case Val(_, num, _) => num
  }

  /** A timestamp column, parsed only when present: None when missing, null or unparsable. */
  function Timestamp(row: Row, column: string): Option<int> {
    match Get(row, column)
    case Null(_) => None
    case Val(_, _, time) => time
  }

  function PickupTime(row: Row): Option<int> { Timestamp(row, "pickup_datetime") }

  function DropoffTime(row: Row): Option<int> { Timestamp(row, "dropoff_datetime") }

  /** The `trip_duration` value; an absent column reads as null. */
  function DurationCell(row: Row): Cell { Get(row, "trip_duration") }

  /** A coordinate column: the long name when the row has it, otherwise the short one. */
  function Coordinate(row: Row, long: string, short: string): Cell {
    if long in row then row[long] else Get(row, short)
  }

  function PickupLat(row: Row): Cell { Coordinate(row, "pickup_latitude", "pickup_lat") }

  function PickupLon(row: Row): Cell { Coordinate(row, "pickup_longitude", "pickup_lon") }

  function DropoffLat(row: Row): Cell { Coordinate(row, "dropoff_latitude", "dropoff_lat") }

  function DropoffLon(row: Row): Cell { Coordinate(row, "dropoff_longitude", "dropoff_lon") }

  /** A timestamp exists exactly when the column is there, non-null, and coerces to a time. */
  lemma TimestampParsed(row: Row, column: string)
    ensures Timestamp(row, column).Some? <==>
      column in row && row[column].Val? && row[column].time.Some?
    ensures Timestamp(row, column).Some? ==> Timestamp(row, column) == row[column].time
  {
  }

  /** `row.get("trip_duration")`: the value when the column exists, otherwise a null. */
  lemma DurationLookup(row: Row)
    ensures "trip_duration" in row ==> DurationCell(row) == row["trip_duration"]
    ensures "trip_duration" !in row ==> DurationCell(row) == Null("None")
  {
  }

  /**
   * The long column name wins; the short one is read only when the long
   * one is absent; a row with neither reads as None.
   */
  lemma CoordinateLookup(row: Row, long: string, short: string)
    ensures long in row ==> Coordinate(row, long, short) == row[long]
    ensures long !in row && short in row ==> Coordinate(row, long, short) == row[short]
    ensures long !in row && short !in row ==> Coordinate(row, long, short) == Null("None")
  {
  }

  /** All four coordinates are non-null. */
  predicate CoordinatesPresent(row: Row) {
    PickupLat(row).Val? && PickupLon(row).Val? && DropoffLat(row).Val? && DropoffLon(row).Val?
  }
}

=== FILE: classifier.dfy ===
/**
 * Per-row classification of the ETL cleaner: the body of the loop in
 * process_chunk (backend/etl/data_cleaning.py). The checks run in a fixed
 * order, each appending its reasons; the derived fields are kept whatever
 * the outcome; the signature set is threaded from row to row.
 */
module Classifier {
  import opened Wrappers
  import opened Reasons
  import opened Cells
  import opened Geo
  import opened Signatures

  /** Speeds above this many km/h are outliers. */
  const SpeedLimitKmph: real := 200.0

  const SecondsPerHour: real := 3600.0

  /** The fields added to every record, excluded or not. */
  datatype Derived = Derived(durationS: Option<real>, distanceKm: Option<real>, speedKmph: Option<real>)

  datatype Verdict = Verdict(derived: Derived, reasons: seq<Reason>)

  datatype Classified = Classified(verdict: Verdict, seen: set<Signature>)

  /** An intermediate value of one stage together with the reasons it appended. */
  datatype Staged = Staged(value: Option<real>, reasons: seq<Reason>)

  /** Every reason in `rs` has a rank in [lo, hi]. */
  predicate RanksWithin(rs: seq<Reason>, lo: nat, hi: nat) {
    forall i :: 0 <= i < |rs| ==> lo <= Rank(rs[i]) <= hi
  }

  lemma RankedConcat(a: seq<Reason>, b: seq<Reason>, lo: nat, mid: nat, hi: nat)
    requires Ranked(a) && Ranked(b)
    requires lo <= mid < hi
    requires RanksWithin(a, lo, mid) && RanksWithin(b, mid + 1, hi)
    ensures Ranked(a + b) && RanksWithin(a + b, lo, hi)
  {
    forall i | 0 <= i < |a + b|
      ensures lo <= Rank((a + b)[i]) <= hi
    {
      if i < |a| {
        assert (a + b)[i] == a[i];
      } else {
        assert (a + b)[i] == b[i - |a|];
      }
    }
    forall i, j | 0 <= i < j < |a + b|
      ensures Rank((a + b)[i]) < Rank((a + b)[j])
    {
      if j < |a| {
        assert (a + b)[i] == a[i] && (a + b)[j] == a[j];
      } else if i >= |a| {
        assert (a + b)[i] == b[i - |a|] && (a + b)[j] == b[j - |a|];
      } else {
        assert (a + b)[i] == a[i] && (a + b)[j] == b[j - |a|];
      }
    }
  }

  /** Timestamp check: a missing or unparsable timestamp, or pickup not before dropoff. */
  function CheckTimestamps(pickup: Option<int>, dropoff: Option<int>): (rs: seq<Reason>)
    ensures InvalidDatetime in rs <==> pickup.None? || dropoff.None?
    ensures NonpositiveDurationFromTimestamps in rs <==>
      pickup.Some? && dropoff.Some? && pickup.value >= dropoff.value
    ensures forall k :: k in rs ==> k == InvalidDatetime || k == NonpositiveDurationFromTimestamps
    ensures |rs| <= 1 && RanksWithin(rs, 0, 1)
  {
    if pickup.None? || dropoff.None? then [InvalidDatetime]
    else if pickup.value >= dropoff.value then [NonpositiveDurationFromTimestamps]
    else []
  }

  /**
   * pandas keeps a Timedelta as a signed 64-bit count of nanoseconds (the
   * lowest value is reserved for NaT); a timestamp difference outside that
   * range raises instead of returning.
   */
  const MaxTimedeltaNs: int := 0x7FFF_FFFF_FFFF_FFFF

  /** A difference of `seconds` fits in a Timedelta. */
  predicate TimedeltaInRange(seconds: int) {
    -MaxTimedeltaNs <= seconds * 1_000_000_000 <= MaxTimedeltaNs
  }

  /**
   * Duration resolution: a parseable `trip_duration` value is used as it
   * is; only when none was obtained, and both timestamps parsed, is the
   * difference of the timestamps used instead, and a difference too large
   * for a Timedelta leaves no duration and `cannot_compute_duration`.
   */
  function ResolveDuration(column: Cell, pickup: Option<int>, dropoff: Option<int>): (r: Staged)
    ensures DurationOutcome(column, pickup, dropoff, r)
  {
    ResolutionOutcome(column, pickup, dropoff);
    Resolution(column, pickup, dropoff)
  }

  /** What duration resolution promises about its result `r`. */
  predicate DurationOutcome(column: Cell, pickup: Option<int>, dropoff: Option<int>, r: Staged) {
    // the column's number wins
    && (AsFloat(column).Some? ==> r.value == AsFloat(column))
    // otherwise the timestamp difference, when it fits in a Timedelta
    && (AsFloat(column).None? && pickup.Some? && dropoff.Some? ==>
      r.value == if TimedeltaInRange(dropoff.value - pickup.value)
        then Some((dropoff.value - pickup.value) as real) else None)
    // and no duration without both timestamps
    && (AsFloat(column).None? && (pickup.None? || dropoff.None?) ==> r.value.None?)
    && (BadTripDurationValue in r.reasons <==> column.Val? && column.num.None?)
    && (NonpositiveDuration in r.reasons <==> r.value.Some? && r.value.value <= 0.0)
    && (CannotComputeDuration in r.reasons <==>
      AsFloat(column).None? && pickup.Some? && dropoff.Some? && !TimedeltaInRange(dropoff.value - pickup.value))
    && (forall k :: k in r.reasons ==>
      k == BadTripDurationValue || k == NonpositiveDuration || k == CannotComputeDuration)
    && Ranked(r.reasons) && RanksWithin(r.reasons, 2, 4)
  }

  function Resolution(column: Cell, pickup: Option<int>, dropoff: Option<int>): Staged {
    var fromColumn :=
      match column
      case Null(_) => Staged(None, [])
      case Val(_, Some(v), _) => Staged(Some(v), if v <= 0.0 then [NonpositiveDuration] else [])
      case Val(_, None, _) => Staged(None, [BadTripDurationValue]);
    if fromColumn.value.None? && pickup.Some? && dropoff.Some? then
      var diff := dropoff.value - pickup.value;
      if TimedeltaInRange(diff) then
        var d := diff as real;
        Staged(Some(d), fromColumn.reasons + (if d <= 0.0 then [NonpositiveDuration] else []))
      else
        Staged(None, fromColumn.reasons + [CannotComputeDuration])
    else
      fromColumn
  }

  lemma ResolutionOutcome(column: Cell, pickup: Option<int>, dropoff: Option<int>)
    ensures DurationOutcome(column, pickup, dropoff, Resolution(column, pickup, dropoff))
  {
    if AsFloat(column).Some? {
      ColumnOutcome(column, pickup, dropoff);
    } else if pickup.Some? && dropoff.Some? {
      FallbackOutcome(column, pickup, dropoff);
    } else {
      NoDurationOutcome(column, pickup, dropoff);
    }
  }

  lemma ColumnOutcome(column: Cell, pickup: Option<int>, dropoff: Option<int>)
    requires AsFloat(column).Some?
    ensures DurationOutcome(column, pickup, dropoff, Resolution(column, pickup, dropoff))
  {
  }

  lemma FallbackOutcome(column: Cell, pickup: Option<int>, dropoff: Option<int>)
    requires AsFloat(column).None? && pickup.Some? && dropoff.Some?
    ensures DurationOutcome(column, pickup, dropoff, Resolution(column, pickup, dropoff))
  {
    var r := Resolution(column, pickup, dropoff);
    var prior: seq<Reason> := if column.Val? then [BadTripDurationValue] else [];
    var diff := dropoff.value - pickup.value;
    if TimedeltaInRange(diff) {
      assert r.reasons == prior + (if (diff as real) <= 0.0 then [NonpositiveDuration] else []);
    } else {
      assert r.reasons == prior + [CannotComputeDuration];
    }
  }

  lemma NoDurationOutcome(column: Cell, pickup: Option<int>, dropoff: Option<int>)
    requires AsFloat(column).None? && (pickup.None? || dropoff.None?)
    ensures DurationOutcome(column, pickup, dropoff, Resolution(column, pickup, dropoff))
  {
  }

  /**
   * Pickup "1700-01-01 00:00:00" and dropoff "2100-01-01 00:00:00" are 400
   * years apart, beyond the 292 years a Timedelta holds: with no
   * `trip_duration` value the row gets no duration and `cannot_compute_duration`.
   */
  lemma OverflowingDifference()
    ensures ResolveDuration(Null("None"), Some(-8520336000), Some(4102444800))
      == Staged(None, [CannotComputeDuration])
  {
    assert !TimedeltaInRange(4102444800 - -8520336000);
  }

  /** Coordinate check for one end of the trip: missing first, otherwise out of the box. */
  function CheckCoordinate(lat: Cell, lon: Cell, missing: Reason, invalid: Reason): (rs: seq<Reason>)
    requires missing != invalid
    ensures missing in rs <==> lat.Null? || lon.Null?
    ensures invalid in rs <==> lat.Val? && lon.Val? && !IsValidCoord(lat, lon)
    ensures forall k :: k in rs ==> k == missing || k == invalid
    ensures |rs| <= 1
  {
    if lat.Null? || lon.Null? then [missing]
    else if !IsValidCoord(lat, lon) then [invalid]
    else []
  }

  /** Distance, attempted only when all four coordinates are non-null. */
  function MeasureDistance(hav: Haversine, row: Row): (r: Staged)
    ensures r.value.Some? ==> CoordinatesPresent(row)
    ensures CoordinatesPresent(row) ==>
      r.value == HaversineKm(hav, PickupLat(row), PickupLon(row), DropoffLat(row), DropoffLon(row))
    ensures CannotComputeDistance in r.reasons <==> CoordinatesPresent(row) && r.value.None?
    ensures BadDistance in r.reasons <==> r.value.Some? && r.value.value <= 0.0
    ensures forall k :: k in r.reasons ==> k == CannotComputeDistance || k == BadDistance
    ensures |r.reasons| <= 1 && RanksWithin(r.reasons, 9, 10)
  {
    if CoordinatesPresent(row) then
      match HaversineKm(hav, PickupLat(row), PickupLon(row), DropoffLat(row), DropoffLon(row))
      case None => Staged(None, [CannotComputeDistance])
      case Some(d) => Staged(Some(d), if d <= 0.0 then [BadDistance] else [])
    else
      Staged(None, [])
  }

  /** `speed` km/h covers `distance` km in `seconds` seconds. */
  predicate IsSpeed(speed: real, distance: real, seconds: real) {
    speed * seconds == distance * SecondsPerHour
  }

  /** Speed in km/h, defined only for a known distance over a positive duration. */
  function MeasureSpeed(distance: Option<real>, duration: Option<real>): (r: Staged)
    ensures r.value.Some? <==> distance.Some? && duration.Some? && duration.value > 0.0
    ensures r.value.Some? ==> IsSpeed(r.value.value, distance.value, duration.value)
    ensures OutlierSpeed in r.reasons <==> r.value.Some? && r.value.value > SpeedLimitKmph
    ensures forall k :: k in r.reasons ==> k == OutlierSpeed
    ensures |r.reasons| <= 1 && RanksWithin(r.reasons, 11, 11)
  {
    if distance.Some? && duration.Some? && duration.value > 0.0 then
      var speed := distance.value / (duration.value / SecondsPerHour);
      Staged(Some(speed), if speed > SpeedLimitKmph then [OutlierSpeed] else [])
    else
      Staged(None, [])
  }

  /**
   * Reference definition of which reasons a row earns, one reason at a
   * time, given the derived values that were attached to it.
   */
  predicate Flagged(row: Row, seen: set<Signature>, d: Derived, k: Reason) {
    match k
    case InvalidDatetime => PickupTime(row).None? || DropoffTime(row).None?
    case NonpositiveDurationFromTimestamps =>
      PickupTime(row).Some? && DropoffTime(row).Some? && PickupTime(row).value >= DropoffTime(row).value
    case BadTripDurationValue => DurationCell(row).Val? && DurationCell(row).num.None?
    case NonpositiveDuration => d.durationS.Some? && d.durationS.value <= 0.0
    case CannotComputeDuration => DifferenceOverflows(row)
    case MissingPickupCoord => PickupLat(row).Null? || PickupLon(row).Null?
    case InvalidPickupCoord =>
      PickupLat(row).Val? && PickupLon(row).Val? && !IsValidCoord(PickupLat(row), PickupLon(row))
    case MissingDropoffCoord => DropoffLat(row).Null? || DropoffLon(row).Null?
    case InvalidDropoffCoord =>
      DropoffLat(row).Val? && DropoffLon(row).Val? && !IsValidCoord(DropoffLat(row), DropoffLon(row))
    case CannotComputeDistance => CoordinatesPresent(row) && d.distanceKm.None?
    case BadDistance => d.distanceKm.Some? && d.distanceKm.value <= 0.0
    case OutlierSpeed => d.speedKmph.Some? && d.speedKmph.value > SpeedLimitKmph
    case Duplicate => MakeSignature(row) in seen
  }

  /** The timestamp fallback is taken and its difference does not fit in a Timedelta. */
  predicate DifferenceOverflows(row: Row) {
    && AsFloat(DurationCell(row)).None?
    && PickupTime(row).Some? && DropoffTime(row).Some?
    && !TimedeltaInRange(DropoffTime(row).value - PickupTime(row).value)
  }

  /**
   * The duration the row ends up with: the column when it parses, else the
   * timestamp difference when it fits in a Timedelta, else none.
   */
  predicate DurationResolved(row: Row, duration: Option<real>) {
    var column := AsFloat(DurationCell(row));
    if column.Some? then duration == column
    else if PickupTime(row).Some? && DropoffTime(row).Some? && !DifferenceOverflows(row) then
      duration == Some((DropoffTime(row).value - PickupTime(row).value) as real)
    else duration.None?
  }

  /** The results of the stages of one row, in the order they run. */
  datatype Stages = Stages(
    timestamps: seq<Reason>,
    duration: Staged,
    pickup: seq<Reason>,
    dropoff: seq<Reason>,
    distance: Staged,
    speed: Staged,
    check: Checked)

  function RunStages(hav: Haversine, row: Row, seen: set<Signature>): Stages {
    var duration := ResolveDuration(DurationCell(row), PickupTime(row), DropoffTime(row));
    var distance := MeasureDistance(hav, row);
    Stages(
      CheckTimestamps(PickupTime(row), DropoffTime(row)),
      duration,
      CheckCoordinate(PickupLat(row), PickupLon(row), MissingPickupCoord, InvalidPickupCoord),
      CheckCoordinate(DropoffLat(row), DropoffLon(row), MissingDropoffCoord, InvalidDropoffCoord),
      distance,
      MeasureSpeed(distance.value, duration.value),
      CheckAndRecord(MakeSignature(row), seen))
  }

  function DuplicateReasons(st: Stages): seq<Reason> {
    if st.check.duplicate then [Duplicate] else []
  }

  /** The reasons of the timestamp, duration and coordinate checks. */
  function FrontReasons(st: Stages): seq<Reason> {
    st.timestamps + st.duration.reasons + st.pickup + st.dropoff
  }

  /** The reasons of the distance, speed and duplicate checks. */
  function BackReasons(st: Stages): seq<Reason> {
    st.distance.reasons + st.speed.reasons + DuplicateReasons(st)
  }

  /** The reasons appended by the stages, in the order the stages run. */
  function AllReasons(st: Stages): seq<Reason> {
    FrontReasons(st) + BackReasons(st)
  }

  function DerivedOf(st: Stages): Derived {
    Derived(st.duration.value, st.distance.value, st.speed.value)
  }

  lemma InAllReasons(st: Stages, k: Reason)
    ensures k in AllReasons(st) <==>
      || k in st.timestamps || k in st.duration.reasons || k in st.pickup || k in st.dropoff
      || k in st.distance.reasons || k in st.speed.reasons || k in DuplicateReasons(st)
  {
  }

  /** The timestamp and duration reasons are flagged as `Flagged` prescribes. */
  lemma TimeReasonsFlagged(hav: Haversine, row: Row, seen: set<Signature>, k: Reason)
    requires Rank(k) <= 4
    ensures var st := RunStages(hav, row, seen);
      k in AllReasons(st) <==> Flagged(row, seen, DerivedOf(st), k)
  {
    if Rank(k) <= 1 {
      TimestampReasonFlagged(hav, row, seen, k);
    } else {
      DurationReasonFlagged(hav, row, seen, k);
    }
  }

  lemma TimestampReasonFlagged(hav: Haversine, row: Row, seen: set<Signature>, k: Reason)
    requires Rank(k) <= 1
    ensures var st := RunStages(hav, row, seen);
      k in AllReasons(st) <==> Flagged(row, seen, DerivedOf(st), k)
  {
    var st := RunStages(hav, row, seen);
    InAllReasons(st, k);
    assert k !in st.duration.reasons && k !in st.pickup && k !in st.dropoff;
    assert k !in st.distance.reasons && k !in st.speed.reasons && k !in DuplicateReasons(st);
  }

  lemma DurationReasonFlagged(hav: Haversine, row: Row, seen: set<Signature>, k: Reason)
    requires 2 <= Rank(k) <= 4
    ensures var st := RunStages(hav, row, seen);
      k in AllReasons(st) <==> Flagged(row, seen, DerivedOf(st), k)
  {
    var st := RunStages(hav, row, seen);
    InAllReasons(st, k);
    assert k !in st.timestamps && k !in st.pickup && k !in st.dropoff;
    assert k !in st.distance.reasons && k !in st.speed.reasons && k !in DuplicateReasons(st);
  }

  /** The coordinate reasons are flagged as `Flagged` prescribes. */
  lemma CoordinateReasonsFlagged(hav: Haversine, row: Row, seen: set<Signature>, k: Reason)
    requires 5 <= Rank(k) <= 8
    ensures var st := RunStages(hav, row, seen);
      k in AllReasons(st) <==> Flagged(row, seen, DerivedOf(st), k)
  {
    var st := RunStages(hav, row, seen);
    InAllReasons(st, k);
    assert k !in st.timestamps && k !in st.duration.reasons && k !in st.distance.reasons;
    assert k !in st.speed.reasons && k !in DuplicateReasons(st);
  }

  /** The distance, speed and duplicate reasons are flagged as `Flagged` prescribes. */
  lemma MeasureReasonsFlagged(hav: Haversine, row: Row, seen: set<Signature>, k: Reason)
    requires 9 <= Rank(k)
    ensures var st := RunStages(hav, row, seen);
      k in AllReasons(st) <==> Flagged(row, seen, DerivedOf(st), k)
  {
    var st := RunStages(hav, row, seen);
    InAllReasons(st, k);
    assert k !in st.timestamps && k !in st.duration.reasons;
    assert k !in st.pickup && k !in st.dropoff;
  }

  lemma StagesFlagged(hav: Haversine, row: Row, seen: set<Signature>)
    ensures var st := RunStages(hav, row, seen);
      forall k :: k in AllReasons(st) <==> Flagged(row, seen, DerivedOf(st), k)
  {
    var st := RunStages(hav, row, seen);
    forall k
      ensures k in AllReasons(st) <==> Flagged(row, seen, DerivedOf(st), k)
    {
      if Rank(k) <= 4 {
        TimeReasonsFlagged(hav, row, seen, k);
      } else if Rank(k) <= 8 {
        CoordinateReasonsFlagged(hav, row, seen, k);
      } else {
        MeasureReasonsFlagged(hav, row, seen, k);
      }
    }
  }

  /** The stage lists sit in disjoint rank bands, so their concatenation is ranked. */
  lemma StagesRanked(hav: Haversine, row: Row, seen: set<Signature>)
    ensures Ranked(AllReasons(RunStages(hav, row, seen)))
  {
    RunStagesBanded(hav, row, seen);
    BandedRanked(RunStages(hav, row, seen));
  }

  /** Each stage appends reasons from its own band of ranks only. */
  predicate Banded(st: Stages) {
    && |st.timestamps| <= 1 && RanksWithin(st.timestamps, 0, 1)
    && Ranked(st.duration.reasons) && RanksWithin(st.duration.reasons, 2, 4)
    && |st.pickup| <= 1 && RanksWithin(st.pickup, 5, 6)
    && |st.dropoff| <= 1 && RanksWithin(st.dropoff, 7, 8)
    && |st.distance.reasons| <= 1 && RanksWithin(st.distance.reasons, 9, 10)
    && |st.speed.reasons| <= 1 && RanksWithin(st.speed.reasons, 11, 11)
  }

  lemma RunStagesBanded(hav: Haversine, row: Row, seen: set<Signature>)
    ensures Banded(RunStages(hav, row, seen))
  {
    var st := RunStages(hav, row, seen);
    PairBand(st.pickup, MissingPickupCoord, InvalidPickupCoord, 5, 6);
    PairBand(st.dropoff, MissingDropoffCoord, InvalidDropoffCoord, 7, 8);
  }

  /** A list drawn from two reasons whose ranks lie in [lo, hi] stays in that band. */
  lemma PairBand(rs: seq<Reason>, a: Reason, b: Reason, lo: nat, hi: nat)
    requires forall k :: k in rs ==> k == a || k == b
    requires lo <= Rank(a) <= hi && lo <= Rank(b) <= hi
    ensures RanksWithin(rs, lo, hi)
  {
    forall i | 0 <= i < |rs|
      ensures lo <= Rank(rs[i]) <= hi
    {
      assert rs[i] in rs;
    }
  }

  lemma BandedRanked(st: Stages)
    requires Banded(st)
    ensures Ranked(AllReasons(st))
  {
    FrontRanked(st);
    BackRanked(st);
    RankedConcat(FrontReasons(st), BackReasons(st), 0, 8, 12);
  }

  lemma FrontRanked(st: Stages)
    requires |st.timestamps| <= 1 && RanksWithin(st.timestamps, 0, 1)
    requires Ranked(st.duration.reasons) && RanksWithin(st.duration.reasons, 2, 4)
    requires |st.pickup| <= 1 && RanksWithin(st.pickup, 5, 6)
    requires |st.dropoff| <= 1 && RanksWithin(st.dropoff, 7, 8)
    ensures Ranked(FrontReasons(st)) && RanksWithin(FrontReasons(st), 0, 8)
  {
    RankedConcat(st.timestamps, st.duration.reasons, 0, 1, 4);
    var r1 := st.timestamps + st.duration.reasons;
    RankedConcat(r1, st.pickup, 0, 4, 6);
    var r2 := r1 + st.pickup;
    RankedConcat(r2, st.dropoff, 0, 6, 8);
  }

  lemma BackRanked(st: Stages)
    requires |st.distance.reasons| <= 1 && RanksWithin(st.distance.reasons, 9, 10)
    requires |st.speed.reasons| <= 1 && RanksWithin(st.speed.reasons, 11, 11)
    ensures Ranked(BackReasons(st)) && RanksWithin(BackReasons(st), 9, 12)
  {
    RankedConcat(st.distance.reasons, st.speed.reasons, 9, 10, 11);
    var r1 := st.distance.reasons + st.speed.reasons;
    RankedConcat(r1, DuplicateReasons(st), 9, 11, 12);
  }

  /**
   * `classify(row, seen) -> (record, seen')`: the checks in the source's
   * order, the derived fields, and the signature set after the row.
   */
  function Classify(hav: Haversine, row: Row, seen: set<Signature>): (c: Classified)
    ensures DurationResolved(row, c.verdict.derived.durationS)
    ensures c.verdict.derived.distanceKm.Some? ==> CoordinatesPresent(row)
    ensures CoordinatesPresent(row) ==>
      c.verdict.derived.distanceKm == HaversineKm(hav, PickupLat(row), PickupLon(row), DropoffLat(row), DropoffLon(row))
    ensures var d := c.verdict.derived;
      && (d.speedKmph.Some? <==> d.distanceKm.Some? && d.durationS.Some? && d.durationS.value > 0.0)
      && (d.speedKmph.Some? ==> IsSpeed(d.speedKmph.value, d.distanceKm.value, d.durationS.value))
    ensures forall k :: k in c.verdict.reasons <==> Flagged(row, seen, c.verdict.derived, k)
    ensures Ranked(c.verdict.reasons)
    ensures c.seen == seen + {MakeSignature(row)}
  {
    var st := RunStages(hav, row, seen);
    StagesDerived(hav, row, seen);
    StagesFlagged(hav, row, seen);
    StagesRanked(hav, row, seen);
    Classified(Verdict(DerivedOf(st), AllReasons(st)), st.check.seen)
  }

  /** The derived duration, distance and speed of the stages. */
  lemma StagesDerived(hav: Haversine, row: Row, seen: set<Signature>)
    ensures var d := DerivedOf(RunStages(hav, row, seen));
      && DurationResolved(row, d.durationS)
      && (d.distanceKm.Some? ==> CoordinatesPresent(row))
      && (CoordinatesPresent(row) ==>
        d.distanceKm == HaversineKm(hav, PickupLat(row), PickupLon(row), DropoffLat(row), DropoffLon(row)))
      && (d.speedKmph.Some? <==> d.distanceKm.Some? && d.durationS.Some? && d.durationS.value > 0.0)
      && (d.speedKmph.Some? ==> IsSpeed(d.speedKmph.value, d.distanceKm.value, d.durationS.value))
  {
  }

  /** The reason list is the unique ranked list of the flagged reasons. */
  lemma ReasonsDetermined(hav: Haversine, row: Row, seen: set<Signature>, rs: seq<Reason>)
    requires Ranked(rs)
    requires forall k :: k in rs <==> Flagged(row, seen, Classify(hav, row, seen).verdict.derived, k)
    ensures rs == Classify(hav, row, seen).verdict.reasons
  {
    var c := Classify(hav, row, seen);
    RankedUnique(rs, c.verdict.reasons);
  }

  /** `invalid_datetime` and `nonpositive_duration_from_timestamps` never come together. */
  lemma TimestampReasonsExclusive(hav: Haversine, row: Row, seen: set<Signature>)
    ensures var rs := Classify(hav, row, seen).verdict.reasons;
      !(InvalidDatetime in rs && NonpositiveDurationFromTimestamps in rs)
  {
  }

  /** At most one coordinate reason per trip end; `invalid_*` needs both values present. */
  lemma CoordinateReasonsExclusive(hav: Haversine, row: Row, seen: set<Signature>)
    ensures var rs := Classify(hav, row, seen).verdict.reasons;
      && !(MissingPickupCoord in rs && InvalidPickupCoord in rs)
      && !(MissingDropoffCoord in rs && InvalidDropoffCoord in rs)
  {
    var c := Classify(hav, row, seen);
    CoordinateFlagsExclusive(row, seen, c.verdict.derived);
  }

  lemma CoordinateFlagsExclusive(row: Row, seen: set<Signature>, d: Derived)
    ensures !(Flagged(row, seen, d, MissingPickupCoord) && Flagged(row, seen, d, InvalidPickupCoord))
    ensures !(Flagged(row, seen, d, MissingDropoffCoord) && Flagged(row, seen, d, InvalidDropoffCoord))
  {
  }

  /**
   * `cannot_compute_duration` is raised exactly when the column gives no
   * number, both timestamps parsed, and their difference overflows a
   * Timedelta; the row then has no duration and hence no speed.
   */
  lemma CannotComputeDurationIff(hav: Haversine, row: Row, seen: set<Signature>)
    ensures var c := Classify(hav, row, seen);
      && (CannotComputeDuration in c.verdict.reasons <==>
        && AsFloat(DurationCell(row)).None?
        && PickupTime(row).Some? && DropoffTime(row).Some?
        && !TimedeltaInRange(DropoffTime(row).value - PickupTime(row).value))
      && (CannotComputeDuration in c.verdict.reasons ==>
        c.verdict.derived.durationS.None? && c.verdict.derived.speedKmph.None?)
  {
    var c := Classify(hav, row, seen);
    assert CannotComputeDuration in c.verdict.reasons <==> Flagged(row, seen, c.verdict.derived, CannotComputeDuration);
  }

  /**
   * A failed distance means some non-null coordinate did not convert, and
   * that coordinate's end was already flagged invalid.
   */
  lemma CannotComputeDistanceImpliesInvalid(hav: Haversine, row: Row, seen: set<Signature>)
    ensures var rs := Classify(hav, row, seen).verdict.reasons;
      CannotComputeDistance in rs ==> InvalidPickupCoord in rs || InvalidDropoffCoord in rs
  {
    var c := Classify(hav, row, seen);
    var rs := c.verdict.reasons;
    var d := c.verdict.derived;
    assert CannotComputeDistance in rs <==> Flagged(row, seen, d, CannotComputeDistance);
    assert InvalidPickupCoord in rs <==> Flagged(row, seen, d, InvalidPickupCoord);
    assert InvalidDropoffCoord in rs <==> Flagged(row, seen, d, InvalidDropoffCoord);
    FailedDistanceFlagsInvalid(hav, row, seen, d);
  }

  lemma FailedDistanceFlagsInvalid(hav: Haversine, row: Row, seen: set<Signature>, d: Derived)
    requires CoordinatesPresent(row) ==>
      d.distanceKm == HaversineKm(hav, PickupLat(row), PickupLon(row), DropoffLat(row), DropoffLon(row))
    ensures Flagged(row, seen, d, CannotComputeDistance) ==>
      Flagged(row, seen, d, InvalidPickupCoord) || Flagged(row, seen, d, InvalidDropoffCoord)
  {
  }

  /** `duplicate` is raised exactly for a signature already in the set. */
  lemma ClassifyDuplicate(hav: Haversine, row: Row, seen: set<Signature>)
    ensures Duplicate in Classify(hav, row, seen).verdict.reasons <==> MakeSignature(row) in seen
  {
    var c := Classify(hav, row, seen);
    assert Duplicate in c.verdict.reasons <==> Flagged(row, seen, c.verdict.derived, Duplicate);
    DuplicateFlag(row, seen, c.verdict.derived);
  }

  lemma DuplicateFlag(row: Row, seen: set<Signature>, d: Derived)
    ensures Flagged(row, seen, d, Duplicate) <==> MakeSignature(row) in seen
  {
  }
}

=== FILE: geo.dfy ===
/**
 * Bounding-box check and the guarded haversine call of the ETL cleaner
 * (backend/etl/data_cleaning.py, is_valid_coord and haversine_km).
 */
module Geo {
  import opened Wrappers
  import opened Cells

  /**
   * The NYC bounding box, degrees. The source writes the decimals 40.4774,
   * 40.9176, -74.2591 and -73.7004; Python holds each as the nearest IEEE
   * double, and these are those doubles written out exactly, so that the
   * comparisons below agree with the float comparisons at the bounds.
   */
  const MinLat: real := 40.4774000000000029331204132176935672760009765625
  const MaxLat: real := 40.91760000000000019326762412674725055694580078125
  const MinLon: real := -74.2591000000000036607161746360361576080322265625
  const MaxLon: real := -73.70040000000000190993887372314929962158203125

  /**
   * Each bound is a double (a 53-bit integer times a power of two) and lies
   * within half a unit in the last place of the decimal written in the source,
   * so it is the value that decimal parses to.
   */
  lemma BoundsAreNearestDoubles()
    ensures MinLat == 5696687611153954.0 / 140737488355328.0
    ensures MaxLat == 5758640253527969.0 / 140737488355328.0
    ensures MinLon == -5225519610763569.0 / 70368744177664.0
    ensures MaxLon == -5186204593391508.0 / 70368744177664.0
    ensures -1.0 / 281474976710656.0 < MinLat - 40.4774 < 1.0 / 281474976710656.0
    ensures -1.0 / 281474976710656.0 < MaxLat - 40.9176 < 1.0 / 281474976710656.0
    ensures -1.0 / 140737488355328.0 < MinLon - -74.2591 < 1.0 / 140737488355328.0
    ensures -1.0 / 140737488355328.0 < MaxLon - -73.7004 < 1.0 / 140737488355328.0
  {
  }

  /**
   * `is_valid_coord`: both values must convert with `float()`, and then
   * lie inside the box, bounds included. A failed conversion gives false.
   */
  function IsValidCoord(lat: Cell, lon: Cell): (ok: bool)
    ensures ok <==>
      && AsFloat(lat).Some? && AsFloat(lon).Some?
      && MinLat <= AsFloat(lat).value <= MaxLat
      && MinLon <= AsFloat(lon).value <= MaxLon
  {
    match (AsFloat(lat), AsFloat(lon))
    case (Some(la), Some(lo)) => MinLat <= la <= MaxLat && MinLon <= lo <= MaxLon
    case _ => false
  }

  /** The four box corners are accepted, and a step past any edge is not. */
  lemma BoxIsInclusive(text: string, eps: real)
    requires eps > 0.0
    ensures IsValidCoord(Val(text, Some(MinLat), None), Val(text, Some(MinLon), None))
    ensures IsValidCoord(Val(text, Some(MaxLat), None), Val(text, Some(MaxLon), None))
    ensures !IsValidCoord(Val(text, Some(MinLat - eps), None), Val(text, Some(MinLon), None))
    ensures !IsValidCoord(Val(text, Some(MaxLat + eps), None), Val(text, Some(MaxLon), None))
    ensures !IsValidCoord(Val(text, Some(MinLat), None), Val(text, Some(MinLon - eps), None))
    ensures !IsValidCoord(Val(text, Some(MaxLat), None), Val(text, Some(MaxLon + eps), None))
  {
  }

  /**
   * The great-circle formula itself (sin, cos, atan2, sqrt on floats) is a
   * parameter: distance in km from (lat1, lon1, lat2, lon2).
   */
  type Haversine = (real, real, real, real) -> real

  /**
   * `haversine_km`: None when any of the four values fails `float()`,
   * otherwise the formula's value.
   */
  function HaversineKm(hav: Haversine, lat1: Cell, lon1: Cell, lat2: Cell, lon2: Cell): (d: Option<real>)
    ensures d.Some? <==>
      AsFloat(lat1).Some? && AsFloat(lon1).Some? && AsFloat(lat2).Some? && AsFloat(lon2).Some?
    ensures d.Some? ==>
      d.value == hav(AsFloat(lat1).value, AsFloat(lon1).value, AsFloat(lat2).value, AsFloat(lon2).value)
  {
    match (AsFloat(lat1), AsFloat(lon1), AsFloat(lat2), AsFloat(lon2))
    case (Some(a), Some(b), Some(c), Some(e)) => Some(hav(a, b, c, e))
    case _ => None
  }
}

=== FILE: locations.dfy ===
/**
 * Location table of the batch pipeline (backend/data_processing.py,
 * process_data): the distinct pickup and dropoff points of the cleaned
 * trips get ids 1..n in order of first appearance, and each trip is
 * joined back to the ids of its two points with left merges.
 */
module Locations {
  import opened Wrappers
  import opened Seqs
  import opened Trips

  /** A (latitude, longitude) pair; a missing coordinate stays None. */
  datatype Point = Point(lat: Option<real>, lon: Option<real>)

  function PickupPoint(t: Trip): Point {
    Point(t.pickupLatitude, t.pickupLongitude)
  }

  function DropoffPoint(t: Trip): Point {
    Point(t.dropoffLatitude, t.dropoffLongitude)
  }

  function Pickups(trips: seq<Trip>): (ps: seq<Point>)
    ensures |ps| == |trips|
    ensures forall i :: 0 <= i < |trips| ==> ps[i] == PickupPoint(trips[i])
  {
    seq(|trips|, i requires 0 <= i < |trips| => PickupPoint(trips[i]))
  }

  function Dropoffs(trips: seq<Trip>): (ps: seq<Point>)
    ensures |ps| == |trips|
    ensures forall i :: 0 <= i < |trips| ==> ps[i] == DropoffPoint(trips[i])
  {
    seq(|trips|, i requires 0 <= i < |trips| => DropoffPoint(trips[i]))
  }

  /**
   * De-duplicate the pickup points and the dropoff points, concatenate,
   * and de-duplicate again: every point of every trip appears exactly once.
   */
  function UniquePoints(trips: seq<Trip>): (ps: seq<Point>)
    ensures Distinct(ps)
    ensures forall p :: p in ps <==> p in Pickups(trips) || p in Dropoffs(trips)
  {
    Dedup(Dedup(Pickups(trips)) + Dedup(Dropoffs(trips)))
  }

  /** The table holds the two points of every trip and nothing else. */
  lemma UniquePointsOfTrips(trips: seq<Trip>)
    ensures forall i :: 0 <= i < |trips| ==> PickupPoint(trips[i]) in UniquePoints(trips) && DropoffPoint(trips[i]) in UniquePoints(trips)
    ensures forall p :: p in UniquePoints(trips) ==>
      exists i :: 0 <= i < |trips| && (p == PickupPoint(trips[i]) || p == DropoffPoint(trips[i]))
  {
    forall i | 0 <= i < |trips|
      ensures PickupPoint(trips[i]) in UniquePoints(trips) && DropoffPoint(trips[i]) in UniquePoints(trips)
    {
      TripPointsListed(trips, i);
    }
    forall p | p in UniquePoints(trips)
      ensures exists i :: 0 <= i < |trips| && (p == PickupPoint(trips[i]) || p == DropoffPoint(trips[i]))
    {
      ListedPointOfTrip(trips, p);
    }
  }

  lemma TripPointsListed(trips: seq<Trip>, i: int)
    requires 0 <= i < |trips|
    ensures PickupPoint(trips[i]) in UniquePoints(trips) && DropoffPoint(trips[i]) in UniquePoints(trips)
  {
    assert Pickups(trips)[i] in Pickups(trips);
    assert Dropoffs(trips)[i] in Dropoffs(trips);
  }

  lemma ListedPointOfTrip(trips: seq<Trip>, p: Point)
    requires p in UniquePoints(trips)
    ensures exists i :: 0 <= i < |trips| && (p == PickupPoint(trips[i]) || p == DropoffPoint(trips[i]))
  {
    var pickups := Pickups(trips);
    var dropoffs := Dropoffs(trips);
    if p in pickups {
      var i := IndexOf(pickups, p);
      assert p == PickupPoint(trips[i]);
    } else {
      assert p in dropoffs;
      var i := IndexOf(dropoffs, p);
      assert p == DropoffPoint(trips[i]);
    }
  }

  /**
   * The intermediate de-duplications change nothing: the table lists the
   * points in order of first appearance, all pickups before all dropoffs.
   */
  lemma UniquePointsFirstAppearance(trips: seq<Trip>)
    ensures UniquePoints(trips) == Dedup(Pickups(trips) + Dropoffs(trips))
  {
    DedupOfDedupConcat(Pickups(trips), Dropoffs(trips));
  }

  /** One row of the `locations` table. */
  datatype Location = Location(id: int, point: Point)

  predicate PointsDistinct(locs: seq<Location>) {
    forall i, j :: 0 <= i < j < |locs| ==> locs[i].point != locs[j].point
  }

  /** `location_id = index + 1` after `reset_index`. */
  function Number(points: seq<Point>): (locs: seq<Location>)
    ensures |locs| == |points|
    ensures forall i :: 0 <= i < |locs| ==> locs[i].point == points[i]
    ensures forall i :: 0 <= i < |locs| ==> 1 <= locs[i].id <= |locs|
    ensures forall i, j :: 0 <= i < |locs| && 0 <= j < |locs| ==> (locs[i].id == locs[j].id <==> i == j)
  {
    seq(|points|, i requires 0 <= i < |points| => Location(i + 1, points[i]))
  }

  /**
   * The table written to the database: ids 1..n, pairwise different, each
   * point once, and every pickup and dropoff point of the trips present.
   */
  function BuildLocations(trips: seq<Trip>): (locs: seq<Location>)
    ensures PointsDistinct(locs)
    ensures forall i :: 0 <= i < |locs| ==> locs[i].id == i + 1
    ensures forall i :: 0 <= i < |trips| ==>
      (exists k :: 0 <= k < |locs| && locs[k].point == PickupPoint(trips[i]))
      && (exists k :: 0 <= k < |locs| && locs[k].point == DropoffPoint(trips[i]))
  {
    var points := UniquePoints(trips);
    var locs := Number(points);
    UniquePointsOfTrips(trips);
    forall i | 0 <= i < |trips|
      ensures exists k :: 0 <= k < |locs| && locs[k].point == PickupPoint(trips[i])
      ensures exists k :: 0 <= k < |locs| && locs[k].point == DropoffPoint(trips[i])
    {
      var a := IndexOf(points, PickupPoint(trips[i]));
      var b := IndexOf(points, DropoffPoint(trips[i]));
      assert locs[a].point == PickupPoint(trips[i]);
      assert locs[b].point == DropoffPoint(trips[i]);
    }
    locs
  }

  /**
   * The table lists the points in order of first appearance among all
   * pickups followed by all dropoffs.
   */
  lemma BuildLocationsOrder(trips: seq<Trip>)
    ensures |BuildLocations(trips)| == |Dedup(Pickups(trips) + Dropoffs(trips))|
    ensures forall k :: 0 <= k < |BuildLocations(trips)| ==>
      BuildLocations(trips)[k].point == Dedup(Pickups(trips) + Dropoffs(trips))[k]
  {
    UniquePointsFirstAppearance(trips);
    var locs := Number(UniquePoints(trips));
    assert BuildLocations(trips) == locs;
  }

  /** Every listed point is the pickup or the dropoff point of some trip. */
  lemma BuildLocationsFromTrips(trips: seq<Trip>, k: int)
    requires 0 <= k < |BuildLocations(trips)|
    ensures exists i ::
      && 0 <= i < |trips|
      && (BuildLocations(trips)[k].point == PickupPoint(trips[i])
        || BuildLocations(trips)[k].point == DropoffPoint(trips[i]))
  {
    var points := UniquePoints(trips);
    var locs := Number(points);
    assert BuildLocations(trips) == locs;
    UniquePointsOfTrips(trips);
    assert locs[k].point == points[k] && points[k] in points;
  }

  function Ids(locs: seq<Location>): (ids: seq<int>)
    ensures |ids| == |locs|
    ensures forall i :: 0 <= i < |locs| ==> ids[i] == locs[i].id
  {
    seq(|locs|, i requires 0 <= i < |locs| => locs[i].id)
  }

  /**
   * `Series.duplicated().sum()`: the entries that repeat an earlier one.
   * It is zero exactly when the entries are pairwise different.
   */
  function DuplicatedCount(ids: seq<int>): (n: int)
    ensures n >= 0
    ensures n == 0 <==> Distinct(ids)
  {
    DedupShrinksIffRepeat(ids);
    |ids| - |Dedup(ids)|
  }

  /** The duplicate-id warning of process_data never fires. */
  lemma NoDuplicateIdWarning(trips: seq<Trip>)
    ensures DuplicatedCount(Ids(BuildLocations(trips))) == 0
  {
    var locs := BuildLocations(trips);
    var ids := Ids(locs);
    assert Distinct(ids) by {
      forall i, j | 0 <= i < j < |ids|
        ensures ids[i] != ids[j]
      {
        assert ids[i] == i + 1 && ids[j] == j + 1;
      }
    }
  }

  // ---- joining the ids back ----

  /** The id of the first location at `p`, if any. */
  function LocationId(locs: seq<Location>, p: Point): (r: Option<int>)
    ensures r.None? <==> forall k :: 0 <= k < |locs| ==> locs[k].point != p
    ensures r.Some? ==> exists k :: 0 <= k < |locs| && locs[k].point == p && locs[k].id == r.value
  {
    if |locs| == 0 then None
    else if locs[0].point == p then Some(locs[0].id)
    else
      var r := LocationId(locs[1..], p);
      assert forall k :: 1 <= k < |locs| ==> locs[k] == locs[1..][k - 1];
      r
  }

  /** The ids of every location at `p`, in table order: the rows a merge on `p` meets. */
  function Matches(locs: seq<Location>, p: Point): (ids: seq<int>)
    ensures forall id :: id in ids <==> exists k :: 0 <= k < |locs| && locs[k].point == p && locs[k].id == id
  {
    if |locs| == 0 then []
    else
      var rest := Matches(locs[1..], p);
      assert forall k :: 1 <= k < |locs| ==> locs[k] == locs[1..][k - 1];
      if locs[0].point == p then [locs[0].id] + rest else rest
  }

  /** With each point listed once, a merge meets at most the one location `LocationId` finds. */
  lemma {:induction false} MatchesOfDistinct(locs: seq<Location>, p: Point)
    requires PointsDistinct(locs)
    ensures Matches(locs, p) == if LocationId(locs, p).Some? then [LocationId(locs, p).value] else []
  {
    if |locs| > 0 {
      MatchesOfDistinct(locs[1..], p);
      if locs[0].point == p {
        assert LocationId(locs[1..], p).None?;
      }
    }
  }

  /** The rows one input row becomes in a left merge: one per match, or one with no id. */
  function Joined<R>(row: R, ids: seq<int>): (out: seq<(R, Option<int>)>)
    ensures |out| == if ids == [] then 1 else |ids|
    ensures forall i :: 0 <= i < |out| ==> out[i].0 == row
    ensures ids == [] <==> (|out| == 1 && out[0].1.None?)
    ensures forall i :: 0 <= i < |ids| ==> out[i].1 == Some(ids[i])
  {
    if ids == [] then [(row, None)]
    else seq(|ids|, i requires 0 <= i < |ids| => (row, Some(ids[i])))
  }

  /** `rows.merge(locations, on=key, how='left')`, rows in their original order. */
  function LeftMerge<R>(rows: seq<R>, key: R -> Point, locs: seq<Location>): (out: seq<(R, Option<int>)>)
    ensures |out| >= |rows|
  {
    if rows == [] then []
    else
      var last := rows[|rows| - 1];
      LeftMerge(rows[..|rows| - 1], key, locs) + Joined(last, Matches(locs, key(last)))
  }

  /**
   * When the table lists each point once, the left merge neither adds nor
   * drops rows: row i gets exactly the id of its own key.
   */
  lemma {:induction false} LeftMergeOnUniqueKeys<R>(rows: seq<R>, key: R -> Point, locs: seq<Location>)
    requires PointsDistinct(locs)
    ensures |LeftMerge(rows, key, locs)| == |rows|
    ensures forall i :: 0 <= i < |rows| ==>
      LeftMerge(rows, key, locs)[i] == (rows[i], LocationId(locs, key(rows[i])))
  {
    if rows != [] {
      var init := rows[..|rows| - 1];
      var last := rows[|rows| - 1];
      LeftMergeOnUniqueKeys(init, key, locs);
      MatchesOfDistinct(locs, key(last));
      var tail := Joined(last, Matches(locs, key(last)));
      assert |tail| == 1 && tail[0] == (last, LocationId(locs, key(last)));
      forall i | 0 <= i < |rows| - 1
        ensures rows[i] == init[i]
      {
      }
    }
  }

  /** A trip with its pickup location id. */
  type WithPickup = (Trip, Option<int>)

  function PickupKey(t: Trip): Point {
    PickupPoint(t)
  }

  function DropoffKey(r: WithPickup): Point {
    DropoffPoint(r.0)
  }

  /** The two merges of process_data: first on the pickup point, then on the dropoff point. */
  function MapLocations(trips: seq<Trip>, locs: seq<Location>): (out: seq<(WithPickup, Option<int>)>)
    ensures |out| >= |trips|
  {
    LeftMerge(LeftMerge(trips, PickupKey, locs), DropoffKey, locs)
  }

  /**
   * A merged row of trip `t` carries `t` itself and two ids, each naming
   * the location at exactly the trip's own pickup or dropoff point.
   */
  predicate MappedRow(locs: seq<Location>, t: Trip, row: (WithPickup, Option<int>)) {
    && row.0.0 == t
    && row.0.1.Some? && 1 <= row.0.1.value <= |locs|
    && locs[row.0.1.value - 1].point == PickupPoint(t)
    && row.1.Some? && 1 <= row.1.value <= |locs|
    && locs[row.1.value - 1].point == DropoffPoint(t)
  }

  /**
   * Against the table built from the same trips, every trip comes out once,
   * in order, with both ids present: the foreign keys of `trips` hold.
   */
  lemma EveryTripMapped(trips: seq<Trip>)
    ensures |MapLocations(trips, BuildLocations(trips))| == |trips|
    ensures forall i :: 0 <= i < |trips| ==>
      MappedRow(BuildLocations(trips), trips[i], MapLocations(trips, BuildLocations(trips))[i])
  {
    var locs := BuildLocations(trips);
    var first := LeftMerge(trips, PickupKey, locs);
    var out := LeftMerge(first, DropoffKey, locs);
    assert out == MapLocations(trips, locs);
    LeftMergeOnUniqueKeys(trips, PickupKey, locs);
    LeftMergeOnUniqueKeys(first, DropoffKey, locs);
    forall i | 0 <= i < |trips|
      ensures MappedRow(locs, trips[i], out[i])
    {
      TripMappedAt(trips, locs, first, i);
    }
  }

  lemma TripMappedAt(trips: seq<Trip>, locs: seq<Location>, first: seq<WithPickup>, i: int)
    requires locs == BuildLocations(trips) && 0 <= i < |trips|
    requires |first| == |trips| && first[i] == (trips[i], LocationId(locs, PickupKey(trips[i])))
    ensures MappedRow(locs, trips[i], (first[i], LocationId(locs, DropoffKey(first[i]))))
  {
    IdOfListedPoint(locs, PickupPoint(trips[i]));
    IdOfListedPoint(locs, DropoffPoint(trips[i]));
  }

  /** In a table numbered 1..n with each point once, a listed point finds its own row. */
  lemma IdOfListedPoint(locs: seq<Location>, p: Point)
    requires PointsDistinct(locs)
    requires forall i :: 0 <= i < |locs| ==> locs[i].id == i + 1
    requires exists k :: 0 <= k < |locs| && locs[k].point == p
    ensures LocationId(locs, p).Some?
    ensures 1 <= LocationId(locs, p).value <= |locs|
    ensures locs[LocationId(locs, p).value - 1].point == p
  {
  }

  /** Two trips share a pickup id exactly when they share the pickup point. */
  lemma SameIdIffSamePoint(trips: seq<Trip>, p: Point, q: Point)
    requires
      var locs := BuildLocations(trips);
      LocationId(locs, p).Some? && LocationId(locs, q).Some?
    ensures
      var locs := BuildLocations(trips);
      LocationId(locs, p) == LocationId(locs, q) <==> p == q
  {
  }
}

=== FILE: pipeline.dfy ===
/**
 * Routing of classified rows and the chunk loop of the ETL cleaner
 * (backend/etl/data_cleaning.py, process_chunk and main). One signature
 * set is threaded through every row of every chunk.
 */
module Pipeline {
  import opened Wrappers
  import opened Seqs
  import opened Reasons
  import opened Cells
  import opened Geo
  import opened Signatures
  import opened Classifier

  /**
   * One output row: the raw values, the three derived fields, and the
   * `reason` column, which only excluded rows carry.
   */
  datatype Record = Record(row: Row, derived: Derived, reason: Option<string>)

  predicate IsClean(r: Record) { r.reason.None? }

  predicate IsExcluded(r: Record) { r.reason.Some? }

  /** The reason codes a record carries, read back from its `reason` column. */
  function ReasonsOf(r: Record): seq<Reason> {
    match r.reason
    case None => []
    case Some(text) => DecodeReasons(text).GetOr([])
  }

  /**
   * The record built for a row: derived fields always attached; `reason`
   * set, to the ";"-joined tags, exactly when some reason was found.
   */
  function ToRecord(row: Row, v: Verdict): (r: Record)
    ensures r.row == row && r.derived == v.derived
    ensures IsExcluded(r) <==> v.reasons != []
    ensures ReasonsOf(r) == v.reasons
  {
    if v.reasons == [] then
      Record(row, v.derived, None)
    else
      DecodeEncode(v.reasons);
      Record(row, v.derived, Some(EncodeReasons(v.reasons)))
  }

  /** The two output lists and the signature set, as the loop carries them. */
  datatype Acc = Acc(cleaned: seq<Record>, excluded: seq<Record>, seen: set<Signature>)

  /**
   * What the loop body asks of each row: its verdict and the signature set
   * afterwards. The loop's shape does not depend on how rows are judged, so
   * it is written over any such function and instantiated with Classify.
   */
  type Judge = (Row, set<Signature>) -> Classified

  function Judged(hav: Haversine): Judge {
    (row, seen) => Classify(hav, row, seen)
  }

  /** The judge adds every row's signature to the set, as Classify does. */
  ghost predicate RecordsSignatures(judge: Judge) {
    forall row, seen :: judge(row, seen).seen == seen + {MakeSignature(row)}
  }

  lemma JudgedRecordsSignatures(hav: Haversine)
    ensures RecordsSignatures(Judged(hav))
  {
    forall row, seen ensures Judged(hav)(row, seen).seen == seen + {MakeSignature(row)} {
      var c := Classify(hav, row, seen);
    }
  }

  /** One pass of the loop body of process_chunk. */
  function Step(judge: Judge, acc: Acc, row: Row): Acc {
    var c := judge(row, acc.seen);
    var record := ToRecord(row, c.verdict);
    if c.verdict.reasons != [] then Acc(acc.cleaned, acc.excluded + [record], c.seen)
    else Acc(acc.cleaned + [record], acc.excluded, c.seen)
  }

  /** The loop of process_chunk as a left fold over the rows. */
  function Fold(judge: Judge, acc: Acc, rows: seq<Row>): Acc
    decreases |rows|
  {
    if |rows| == 0 then acc else Fold(judge, Step(judge, acc, rows[0]), rows[1..])
  }

  /** `process_chunk(chunk, seen_signatures)`: both lists start empty. */
  function ProcessChunk(hav: Haversine, chunk: seq<Row>, seen: set<Signature>): Acc {
    Fold(Judged(hav), Acc([], [], seen), chunk)
  }

  // ---- reference definition: each row judged against everything before it ----

  /** The signature set once `rows` have been seen. */
  function SeenAfter(seen: set<Signature>, rows: seq<Row>): set<Signature> {
    seen + set i | 0 <= i < |rows| :: MakeSignature(rows[i])
  }

  /** The record of row `i`, judged against the signatures of all earlier rows. */
  function RecordAt(judge: Judge, rows: seq<Row>, seen: set<Signature>, i: nat): Record
    requires i < |rows|
  {
    ToRecord(rows[i], judge(rows[i], SeenAfter(seen, rows[..i])).verdict)
  }

  /** One record per row, in row order. */
  function Records(judge: Judge, rows: seq<Row>, seen: set<Signature>): (rs: seq<Record>)
    ensures |rs| == |rows|
    ensures forall i :: 0 <= i < |rows| ==> rs[i] == RecordAt(judge, rows, seen, i)
  {
    seq(|rows|, i requires 0 <= i < |rows| => RecordAt(judge, rows, seen, i))
  }

  // ---- fold lemmas ----

  lemma {:induction false} FoldAppend(judge: Judge, acc: Acc, a: seq<Row>, b: seq<Row>)
    ensures Fold(judge, acc, a + b) == Fold(judge, Fold(judge, acc, a), b)
    decreases |a|
  {
    if |a| == 0 {
      assert a + b == b;
    } else {
      assert (a + b)[0] == a[0];
      assert (a + b)[1..] == a[1..] + b;
      FoldAppend(judge, Step(judge, acc, a[0]), a[1..], b);
    }
  }

  lemma SeenAfterSnoc(seen: set<Signature>, rows: seq<Row>, row: Row)
    ensures SeenAfter(seen, rows + [row]) == SeenAfter(seen, rows) + {MakeSignature(row)}
  {
    var all := rows + [row];
    assert forall i :: 0 <= i < |rows| ==> all[i] == rows[i];
    assert all[|rows|] == row;
    forall x | x in SeenAfter(seen, all)
      ensures x in SeenAfter(seen, rows) + {MakeSignature(row)}
    {
      if x !in seen {
        var i :| 0 <= i < |all| && x == MakeSignature(all[i]);
        if i < |rows| {
          assert x == MakeSignature(rows[i]);
        }
      }
    }
  }

  lemma RecordsSnoc(judge: Judge, rows: seq<Row>, row: Row, seen: set<Signature>)
    ensures Records(judge, rows + [row], seen)
      == Records(judge, rows, seen) + [ToRecord(row, judge(row, SeenAfter(seen, rows)).verdict)]
  {
    var all := rows + [row];
    assert all[..|rows|] == rows;
    forall i | 0 <= i < |rows|
      ensures RecordAt(judge, all, seen, i) == RecordAt(judge, rows, seen, i)
    {
      assert all[..i] == rows[..i];
      assert all[i] == rows[i];
    }
  }

  /** The last step of the fold appends the last row's record to its list. */
  lemma StepFiltered(judge: Judge, recs: seq<Record>, s: set<Signature>, row: Row)
    requires RecordsSignatures(judge)
    ensures var record := ToRecord(row, judge(row, s).verdict);
      Step(judge, Acc(Filter(recs, IsClean), Filter(recs, IsExcluded), s), row)
        == Acc(Filter(recs + [record], IsClean), Filter(recs + [record], IsExcluded), s + {MakeSignature(row)})
  {
    var c := judge(row, s);
    var record := ToRecord(row, c.verdict);
    FilterAppend(recs, [record], IsClean);
    FilterAppend(recs, [record], IsExcluded);
    assert c.seen == s + {MakeSignature(row)};
    if c.verdict.reasons != [] {
      assert Filter([record], IsExcluded) == [record] && Filter([record], IsClean) == [];
    } else {
      assert Filter([record], IsClean) == [record] && Filter([record], IsExcluded) == [];
    }
  }

  /**
   * The fold puts, in row order, every clean record into `cleaned` and
   * every flagged one into `excluded`, each row judged against the
   * signatures seen before it; afterwards the set holds every row's signature.
   */
  lemma {:induction false} FoldSpec(judge: Judge, rows: seq<Row>, seen: set<Signature>)
    requires RecordsSignatures(judge)
    ensures var recs := Records(judge, rows, seen);
      Fold(judge, Acc([], [], seen), rows)
        == Acc(Filter(recs, IsClean), Filter(recs, IsExcluded), SeenAfter(seen, rows))
    decreases |rows|
  {
    if |rows| == 0 {
      assert SeenAfter(seen, rows) == seen;
    } else {
      var init := rows[..|rows| - 1];
      var last := rows[|rows| - 1];
      assert rows == init + [last];
      FoldSpec(judge, init, seen);
      FoldAppend(judge, Acc([], [], seen), init, [last]);
      RecordsSnoc(judge, init, last, seen);
      SeenAfterSnoc(seen, init, last);
      StepFiltered(judge, Records(judge, init, seen), SeenAfter(seen, init), last);
    }
  }

  /**
   * process_chunk, in row order: clean records to `cleaned`, flagged ones
   * to `excluded`, each row classified against the signatures seen before
   * it; afterwards the set holds every row's signature.
   */
  lemma ProcessChunkSpec(hav: Haversine, chunk: seq<Row>, seen: set<Signature>)
    ensures var recs := Records(Judged(hav), chunk, seen);
      ProcessChunk(hav, chunk, seen)
        == Acc(Filter(recs, IsClean), Filter(recs, IsExcluded), SeenAfter(seen, chunk))
  {
    JudgedRecordsSignatures(hav);
    FoldSpec(Judged(hav), chunk, seen);
  }

  /** Every row yields exactly one record, in one of the two lists. */
  lemma ProcessChunkPartition(hav: Haversine, chunk: seq<Row>, seen: set<Signature>)
    ensures var r := ProcessChunk(hav, chunk, seen);
      && |r.cleaned| + |r.excluded| == |chunk|
      && (forall x :: x in r.cleaned ==> x.reason.None? && ReasonsOf(x) == [])
      && (forall x :: x in r.excluded ==> x.reason.Some? && ReasonsOf(x) != [])
  {
    ProcessChunkSpec(hav, chunk, seen);
    var recs := Records(Judged(hav), chunk, seen);
    FilterPartition(recs, IsClean, IsExcluded);
    forall x | x in recs
      ensures IsExcluded(x) <==> ReasonsOf(x) != []
    {
      var i :| 0 <= i < |recs| && recs[i] == x;
    }
  }

  lemma InSeenAfter(seen: set<Signature>, rows: seq<Row>, sig: Signature)
    ensures sig in SeenAfter(seen, rows) <==>
      sig in seen || exists j :: 0 <= j < |rows| && MakeSignature(rows[j]) == sig
  {
  }

  /** The judge flags `duplicate` exactly for a signature already in the set, as Classify does. */
  ghost predicate DetectsDuplicates(judge: Judge) {
    forall row, seen :: Duplicate in judge(row, seen).verdict.reasons <==> MakeSignature(row) in seen
  }

  lemma JudgedDetectsDuplicates(hav: Haversine)
    ensures DetectsDuplicates(Judged(hav))
  {
    forall row, seen
      ensures Duplicate in Judged(hav)(row, seen).verdict.reasons <==> MakeSignature(row) in seen
    {
      ClassifyDuplicate(hav, row, seen);
    }
  }

  lemma EarlierTwin(judge: Judge, rows: seq<Row>, seen: set<Signature>, i: nat)
    requires DetectsDuplicates(judge)
    requires i < |rows|
    ensures Duplicate in ReasonsOf(RecordAt(judge, rows, seen, i)) <==>
      MakeSignature(rows[i]) in seen || exists j :: 0 <= j < i && MakeSignature(rows[j]) == MakeSignature(rows[i])
  {
    InSeenAfter(seen, rows[..i], MakeSignature(rows[i]));
    assert forall j :: 0 <= j < i ==> rows[..i][j] == rows[j];
  }

  /**
   * A row is flagged `duplicate` exactly when its signature was seen
   * before the chunk or belongs to an earlier row of the chunk; the first
   * occurrence is never flagged.
   */
  lemma DuplicateIffEarlierTwin(hav: Haversine, rows: seq<Row>, seen: set<Signature>, i: nat)
    requires i < |rows|
    ensures Duplicate in ReasonsOf(Records(Judged(hav), rows, seen)[i]) <==>
      MakeSignature(rows[i]) in seen || exists j :: 0 <= j < i && MakeSignature(rows[j]) == MakeSignature(rows[i])
  {
    JudgedDetectsDuplicates(hav);
    EarlierTwin(Judged(hav), rows, seen, i);
  }

  /** Seeing `a` and then `b` leaves the set that seeing `a + b` does. */
  lemma SeenAfterAppend(seen: set<Signature>, a: seq<Row>, b: seq<Row>)
    ensures SeenAfter(SeenAfter(seen, a), b) == SeenAfter(seen, a + b)
  {
    var ab := a + b;
    assert forall i :: 0 <= i < |a| ==> ab[i] == a[i];
    assert forall j :: 0 <= j < |b| ==> ab[|a| + j] == b[j];
    forall x | x in SeenAfter(seen, ab)
      ensures x in SeenAfter(SeenAfter(seen, a), b)
    {
      if x !in seen {
        var i :| 0 <= i < |ab| && x == MakeSignature(ab[i]);
        if i < |a| {
          assert x == MakeSignature(a[i]);
        } else {
          assert x == MakeSignature(b[i - |a|]);
        }
      }
    }
  }

  /**
   * The records of `a + b` are those of `a`, followed by those of `b`
   * judged against the signatures `a` left behind.
   */
  lemma RecordsAppend(judge: Judge, a: seq<Row>, b: seq<Row>, seen: set<Signature>)
    ensures Records(judge, a + b, seen) == Records(judge, a, seen) + Records(judge, b, SeenAfter(seen, a))
  {
    var lhs := Records(judge, a + b, seen);
    var rhs := Records(judge, a, seen) + Records(judge, b, SeenAfter(seen, a));
    forall k | 0 <= k < |lhs|
      ensures lhs[k] == rhs[k]
    {
      RecordsAppendAt(judge, a, b, seen, k);
    }
  }

  lemma RecordsAppendAt(judge: Judge, a: seq<Row>, b: seq<Row>, seen: set<Signature>, k: nat)
    requires k < |a| + |b|
    ensures Records(judge, a + b, seen)[k]
      == (Records(judge, a, seen) + Records(judge, b, SeenAfter(seen, a)))[k]
  {
    if k < |a| {
      RecordAtPrefix(judge, a, b, seen, k);
    } else {
      RecordAtSuffix(judge, a, b, seen, k - |a|);
    }
  }

  /** A row of the first part sees the same history in `a + b` as in `a`. */
  lemma RecordAtPrefix(judge: Judge, a: seq<Row>, b: seq<Row>, seen: set<Signature>, i: nat)
    requires i < |a|
    ensures RecordAt(judge, a + b, seen, i) == RecordAt(judge, a, seen, i)
  {
    assert (a + b)[..i] == a[..i];
  }

  /** A row of the second part sees all of `a` and the rows of `b` before it. */
  lemma RecordAtSuffix(judge: Judge, a: seq<Row>, b: seq<Row>, seen: set<Signature>, j: nat)
    requires j < |b|
    ensures RecordAt(judge, a + b, seen, |a| + j) == RecordAt(judge, b, SeenAfter(seen, a), j)
  {
    assert (a + b)[..|a| + j] == a + b[..j];
    SeenAfterAppend(seen, a, b[..j]);
  }

  /**
   * Cutting a chunk in two changes nothing: the second half, processed
   * with the set the first half left, adds exactly what it would have added.
   */
  lemma SplitChunk(hav: Haversine, a: seq<Row>, b: seq<Row>, seen: set<Signature>)
    ensures var ra := ProcessChunk(hav, a, seen);
      var rb := ProcessChunk(hav, b, ra.seen);
      ProcessChunk(hav, a + b, seen) == Acc(ra.cleaned + rb.cleaned, ra.excluded + rb.excluded, rb.seen)
  {
    ProcessChunkSpec(hav, a, seen);
    ProcessChunkSpec(hav, b, SeenAfter(seen, a));
    ProcessChunkSpec(hav, a + b, seen);
    RecordsAppend(Judged(hav), a, b, seen);
    SeenAfterAppend(seen, a, b);
    var ra := Records(Judged(hav), a, seen);
    var rb := Records(Judged(hav), b, SeenAfter(seen, a));
    FilterAppend(ra, rb, IsClean);
    FilterAppend(ra, rb, IsExcluded);
  }

  /** All chunks laid end to end. */
  function Flatten(chunks: seq<seq<Row>>): seq<Row>
    decreases |chunks|
  {
    if |chunks| == 0 then [] else Flatten(chunks[..|chunks| - 1]) + chunks[|chunks| - 1]
  }

  /**
   * One more chunk, processed with the set left by the rows before it,
   * extends the totals of those rows to the totals of all the rows.
   */
  lemma ChunkStep(hav: Haversine, before: seq<Row>, chunk: seq<Row>)
    ensures var r := ProcessChunk(hav, chunk, SeenAfter({}, before));
      && Filter(Records(Judged(hav), before + chunk, {}), IsClean)
        == Filter(Records(Judged(hav), before, {}), IsClean) + r.cleaned
      && Filter(Records(Judged(hav), before + chunk, {}), IsExcluded)
        == Filter(Records(Judged(hav), before, {}), IsExcluded) + r.excluded
      && r.seen == SeenAfter({}, before + chunk)
  {
    var seen := SeenAfter({}, before);
    ProcessChunkSpec(hav, chunk, seen);
    RecordsAppend(Judged(hav), before, chunk, {});
    SeenAfterAppend({}, before, chunk);
    var earlier := Records(Judged(hav), before, {});
    var added := Records(Judged(hav), chunk, seen);
    FilterAppend(earlier, added, IsClean);
    FilterAppend(earlier, added, IsExcluded);
  }

  /**
   * The chunk loop of `main`: each chunk is processed with the signature
   * set left by the previous ones and its lists are appended to the totals.
   * Chunking is invisible: the totals are those of one big chunk.
   */
  method Run(hav: Haversine, chunks: seq<seq<Row>>) returns (cleaned: seq<Record>, excluded: seq<Record>)
    ensures var all := ProcessChunk(hav, Flatten(chunks), {});
      cleaned == all.cleaned && excluded == all.excluded
    ensures cleaned == Filter(Records(Judged(hav), Flatten(chunks), {}), IsClean)
    ensures excluded == Filter(Records(Judged(hav), Flatten(chunks), {}), IsExcluded)
  {
    cleaned, excluded := [], [];
    var seen: set<Signature> := {};
    for i := 0 to |chunks|
      invariant cleaned == Filter(Records(Judged(hav), Flatten(chunks[..i]), {}), IsClean)
      invariant excluded == Filter(Records(Judged(hav), Flatten(chunks[..i]), {}), IsExcluded)
      invariant seen == SeenAfter({}, Flatten(chunks[..i]))
    {
      var r := ProcessChunk(hav, chunks[i], seen);
      assert chunks[..i + 1][..i] == chunks[..i];
      assert Flatten(chunks[..i + 1]) == Flatten(chunks[..i]) + chunks[i];
      ChunkStep(hav, Flatten(chunks[..i]), chunks[i]);
      cleaned := cleaned + r.cleaned;
      excluded := excluded + r.excluded;
      seen := r.seen;
    }
    assert chunks[..|chunks|] == chunks;
    ProcessChunkSpec(hav, Flatten(chunks), {});
  }
}

=== FILE: reasons.dfy ===
/**
 * Exclusion reasons of the ETL classifier, their text tags, and the
 * `reason` column of the excluded file: the tags joined with ";" in the
 * order the checks ran (backend/etl/data_cleaning.py, process_chunk).
 */
module Reasons {
  import opened Wrappers

  /** The closed set of reason codes, listed in the order the checks run. */
  datatype Reason =
    | InvalidDatetime
    | NonpositiveDurationFromTimestamps
    | BadTripDurationValue
    | NonpositiveDuration
    | CannotComputeDuration
    | MissingPickupCoord
    | InvalidPickupCoord
    | MissingDropoffCoord
    | InvalidDropoffCoord
    | CannotComputeDistance
    | BadDistance
    | OutlierSpeed
    | Duplicate

  const Separator: char := ';'

  /** Reads a tag back; None for any text that is not a tag. */
  function ParseTag(s: string): Option<Reason> {
    if s == "invalid_datetime" then Some(InvalidDatetime)
    else if s == "nonpositive_duration_from_timestamps" then Some(NonpositiveDurationFromTimestamps)
    else if s == "bad_trip_duration_value" then Some(BadTripDurationValue)
    else if s == "nonpositive_duration" then Some(NonpositiveDuration)
    else if s == "cannot_compute_duration" then Some(CannotComputeDuration)
    else if s == "missing_pickup_coord" then Some(MissingPickupCoord)
    else if s == "invalid_pickup_coord" then Some(InvalidPickupCoord)
    else if s == "missing_dropoff_coord" then Some(MissingDropoffCoord)
    else if s == "invalid_dropoff_coord" then Some(InvalidDropoffCoord)
    else if s == "cannot_compute_distance" then Some(CannotComputeDistance)
    else if s == "bad_distance" then Some(BadDistance)
    else if s == "outlier_speed" then Some(OutlierSpeed)
    else if s == "duplicate" then Some(Duplicate)
    else None
  }

  /** The string the source appends to its reason list. */
  function Tag(r: Reason): string {
    match r
    case InvalidDatetime => "invalid_datetime"
    case NonpositiveDurationFromTimestamps => "nonpositive_duration_from_timestamps"
    case BadTripDurationValue => "bad_trip_duration_value"
    case NonpositiveDuration => "nonpositive_duration"
    case CannotComputeDuration => "cannot_compute_duration"
    case MissingPickupCoord => "missing_pickup_coord"
    case InvalidPickupCoord => "invalid_pickup_coord"
    case MissingDropoffCoord => "missing_dropoff_coord"
    case InvalidDropoffCoord => "invalid_dropoff_coord"
    case CannotComputeDistance => "cannot_compute_distance"
    case BadDistance => "bad_distance"
    case OutlierSpeed => "outlier_speed"
    case Duplicate => "duplicate"
  }

  /**
   * Every tag reads back as its reason, and no tag contains the
   * separator, so a joined list splits back into tags.
   */
  lemma TagRoundTrip(r: Reason)
    ensures ParseTag(Tag(r)) == Some(r)
    ensures Separator !in Tag(r)
  {
    match r
    case InvalidDatetime => TimestampTagsRoundTrip(r);
    case NonpositiveDurationFromTimestamps => TimestampTagsRoundTrip(r);
    case BadTripDurationValue => DurationTagsRoundTrip(r);
    case NonpositiveDuration => DurationTagsRoundTrip(r);
    case CannotComputeDuration => DurationTagsRoundTrip(r);
    case MissingPickupCoord => PickupTagsRoundTrip(r);
    case InvalidPickupCoord => PickupTagsRoundTrip(r);
    case MissingDropoffCoord => DropoffTagsRoundTrip(r);
    case InvalidDropoffCoord => DropoffTagsRoundTrip(r);
    case CannotComputeDistance => DistanceTagsRoundTrip(r);
    case BadDistance => DistanceTagsRoundTrip(r);
    case OutlierSpeed => SpeedAndDuplicateTagsRoundTrip(r);
    case Duplicate => SpeedAndDuplicateTagsRoundTrip(r);
  }

  // One lemma per stage keeps each proof small.

  lemma TimestampTagsRoundTrip(r: Reason)
    requires r.InvalidDatetime? || r.NonpositiveDurationFromTimestamps?
    ensures ParseTag(Tag(r)) == Some(r) && Separator !in Tag(r)
  {
  }

  lemma DurationTagsRoundTrip(r: Reason)
    requires r.BadTripDurationValue? || r.NonpositiveDuration? || r.CannotComputeDuration?
    ensures ParseTag(Tag(r)) == Some(r) && Separator !in Tag(r)
  {
  }

  lemma PickupTagsRoundTrip(r: Reason)
    requires r.MissingPickupCoord? || r.InvalidPickupCoord?
    ensures ParseTag(Tag(r)) == Some(r) && Separator !in Tag(r)
  {
  }

  lemma DropoffTagsRoundTrip(r: Reason)
    requires r.MissingDropoffCoord? || r.InvalidDropoffCoord?
    ensures ParseTag(Tag(r)) == Some(r) && Separator !in Tag(r)
  {
  }

  lemma DistanceTagsRoundTrip(r: Reason)
    requires r.CannotComputeDistance? || r.BadDistance?
    ensures ParseTag(Tag(r)) == Some(r) && Separator !in Tag(r)
  {
    if r.CannotComputeDistance? {
      CannotComputeDistanceTag();
    } else {
      BadDistanceTag();
    }
  }

  lemma SpeedAndDuplicateTagsRoundTrip(r: Reason)
    requires r.OutlierSpeed? || r.Duplicate?
    ensures ParseTag(Tag(r)) == Some(r) && Separator !in Tag(r)
  {
    if r.OutlierSpeed? {
      OutlierSpeedTag();
    } else {
      DuplicateTag();
    }
  }

  // The last four tags come latest in the parser's chain, so each gets its own proof.
  lemma CannotComputeDistanceTag()
    ensures ParseTag(Tag(CannotComputeDistance)) == Some(CannotComputeDistance)
    ensures Separator !in Tag(CannotComputeDistance)
  {
  }

  lemma BadDistanceTag()
    ensures ParseTag(Tag(BadDistance)) == Some(BadDistance) && Separator !in Tag(BadDistance)
  {
  }

  lemma OutlierSpeedTag()
    ensures ParseTag(Tag(OutlierSpeed)) == Some(OutlierSpeed) && Separator !in Tag(OutlierSpeed)
  {
  }

  lemma DuplicateTag()
    ensures ParseTag(Tag(Duplicate)) == Some(Duplicate) && Separator !in Tag(Duplicate)
  {
  }

  /** Position of a reason's check in the classifier's fixed order. */
  function Rank(r: Reason): nat {
    match r
    case InvalidDatetime => 0
    case NonpositiveDurationFromTimestamps => 1
    case BadTripDurationValue => 2
    case NonpositiveDuration => 3
    case CannotComputeDuration => 4
    case MissingPickupCoord => 5
    case InvalidPickupCoord => 6
    case MissingDropoffCoord => 7
    case InvalidDropoffCoord => 8
    case CannotComputeDistance => 9
    case BadDistance => 10
    case OutlierSpeed => 11
    case Duplicate => 12
  }

  /** Reasons appear in strictly increasing check order (so never twice). */
  predicate Ranked(rs: seq<Reason>) {
    forall i, j :: 0 <= i < j < |rs| ==> Rank(rs[i]) < Rank(rs[j])
  }

  lemma RankInjective(x: Reason, y: Reason)
    requires Rank(x) == Rank(y)
    ensures x == y
  {
  }

  lemma HeadIsMember(b: seq<Reason>)
    ensures |b| > 0 ==> b[0] in b
  {
  }

  /** The head of a ranked list has the smallest rank in it. */
  lemma HeadIsLeast(a: seq<Reason>, k: Reason)
    requires Ranked(a) && k in a
    ensures k == a[0] || Rank(a[0]) < Rank(k)
  {
    var m :| 0 <= m < |a| && a[m] == k;
    if m > 0 {
      assert Rank(a[0]) < Rank(a[m]);
    }
  }

  /** A ranked list is fixed by which reasons it contains. */
  lemma {:induction false} RankedUnique(a: seq<Reason>, b: seq<Reason>)
    requires Ranked(a) && Ranked(b)
    requires forall k :: k in a <==> k in b
    ensures a == b
    decreases |a|
  {
    if |a| == 0 {
      HeadIsMember(b);
    } else {
      assert a[0] in a;
      assert |b| > 0;
      assert b[0] in b;
      HeadIsLeast(b, a[0]);
      HeadIsLeast(a, b[0]);
      RankInjective(a[0], b[0]);
      forall k
        ensures k in a[1..] <==> k in b[1..]
      {
        if k in a[1..] {
          HeadIsLeast(a, k);
          assert k in a;
          assert Rank(a[0]) < Rank(k) by {
            var m :| 1 <= m < |a| && a[m] == k;
          }
          assert k in b && k != b[0];
        }
        if k in b[1..] {
          assert k in b;
          assert Rank(b[0]) < Rank(k) by {
            var m :| 1 <= m < |b| && b[m] == k;
          }
          assert k in a && k != a[0];
        }
      }
      RankedUnique(a[1..], b[1..]);
      assert a == [a[0]] + a[1..];
      assert b == [b[0]] + b[1..];
    }
  }

  /** `";".join(parts)` */
  function Join(parts: seq<string>): string
    decreases |parts|
  {
    if |parts| == 0 then ""
    else if |parts| == 1 then parts[0]
    else parts[0] + [Separator] + Join(parts[1..])
  }

  /** `s.split(";")`: always at least one part. */
  function Split(s: string): (parts: seq<string>)
    ensures |parts| >= 1
    decreases |s|
  {
    if |s| == 0 then [""]
    else
      var rest := Split(s[1..]);
      if s[0] == Separator then [""] + rest
      else [[s[0]] + rest[0]] + rest[1..]
  }

  /** A separator-free prefix glues onto the first part of what follows. */
  lemma {:induction false} SplitPrefix(p: string, t: string)
    requires Separator !in p
    ensures Split(p + t) == [p + Split(t)[0]] + Split(t)[1..]
    decreases |p|
  {
    if |p| > 0 {
      assert (p + t)[0] == p[0] && p[0] != Separator;
      assert (p + t)[1..] == p[1..] + t;
      assert Separator !in p[1..];
      SplitPrefix(p[1..], t);
      var rest := Split(p[1..] + t);
      assert rest[0] == p[1..] + Split(t)[0];
      assert rest[1..] == Split(t)[1..];
      assert [p[0]] + (p[1..] + Split(t)[0]) == p + Split(t)[0];
    } else {
      assert p + t == t;
      assert p + Split(t)[0] == Split(t)[0];
      assert Split(t) == [Split(t)[0]] + Split(t)[1..];
    }
  }

  /** Splitting a join of separator-free parts gives the parts back. */
  lemma {:induction false} SplitJoin(parts: seq<string>)
    requires |parts| >= 1
    requires forall i :: 0 <= i < |parts| ==> Separator !in parts[i]
    ensures Split(Join(parts)) == parts
    decreases |parts|
  {
    if |parts| == 1 {
      SplitPrefix(parts[0], "");
      assert parts[0] + "" == parts[0];
    } else {
      var tail := Join(parts[1..]);
      SplitPrefix(parts[0], [Separator] + tail);
      assert ([Separator] + tail)[1..] == tail;
      assert Split([Separator] + tail) == [""] + Split(tail);
      SplitJoin(parts[1..]);
      assert parts[0] + [Separator] + tail == parts[0] + ([Separator] + tail);
      assert parts[0] + "" == parts[0];
      assert parts == [parts[0]] + parts[1..];
    }
  }

  function Tags(rs: seq<Reason>): (ts: seq<string>)
    ensures |ts| == |rs|
    ensures forall i :: 0 <= i < |rs| ==> ts[i] == Tag(rs[i])
  {
    if |rs| == 0 then [] else [Tag(rs[0])] + Tags(rs[1..])
  }

  function ParseTags(ts: seq<string>): Option<seq<Reason>> {
    if |ts| == 0 then Some([])
    else match (ParseTag(ts[0]), ParseTags(ts[1..]))
      case (Some(r), Some(rest)) => Some([r] + rest)
      case _ => None
  }

  /** The `reason` column of an excluded record. */
  function EncodeReasons(rs: seq<Reason>): string {
    Join(Tags(rs))
  }

  /** Reads a `reason` column back into reason codes. */
  function DecodeReasons(s: string): Option<seq<Reason>> {
    ParseTags(Split(s))
  }

  lemma {:induction false} ParseTagsOfTags(rs: seq<Reason>)
    ensures ParseTags(Tags(rs)) == Some(rs)
    decreases |rs|
  {
    if |rs| > 0 {
      ParseTagsOfTags(rs[1..]);
      TagRoundTrip(rs[0]);
      assert Tags(rs)[1..] == Tags(rs[1..]);
      assert rs == [rs[0]] + rs[1..];
    }
  }

  /** The `reason` column loses nothing: it decodes to the reason list. */
  lemma DecodeEncode(rs: seq<Reason>)
    requires |rs| > 0
    ensures DecodeReasons(EncodeReasons(rs)) == Some(rs)
  {
    forall i | 0 <= i < |rs| {
      TagRoundTrip(rs[i]);
    }
    SplitJoin(Tags(rs));
    ParseTagsOfTags(rs);
  }
}

=== FILE: seqs.dfy ===
/**
 * Sequence helpers shared by both cores: the order-preserving filter (a
 * boolean-mask selection on a frame, or a list comprehension with a guard)
 * and keep-first de-duplication (`drop_duplicates()` with its default
 * `keep="first"`).
 */
module Seqs {

  /** Order-preserving selection of the elements that satisfy `p`. */
  function Filter<T(!new)>(s: seq<T>, p: T -> bool): (r: seq<T>)
    ensures |r| <= |s|
    ensures forall x :: x in r <==> x in s && p(x)
  {
    if |s| == 0 then []
    else (if p(s[0]) then [s[0]] else []) + Filter(s[1..], p)
  }

  lemma {:induction false} FilterAppend<T(!new)>(a: seq<T>, b: seq<T>, p: T -> bool)
    ensures Filter(a + b, p) == Filter(a, p) + Filter(b, p)
    decreases |a|
  {
    if |a| == 0 {
      assert a + b == b;
    } else {
      assert (a + b)[1..] == a[1..] + b;
      FilterAppend(a[1..], b, p);
    }
  }

  /**
   * `r` is `s` with some elements deleted: the elements of `r` occur in
   * `s` in the same order (matched greedily, leftmost first).
   */
  predicate Subsequence<T(==)>(r: seq<T>, s: seq<T>)
    decreases |s|
  {
    if |r| == 0 then true
    else if |s| == 0 then false
    else if r[0] == s[0] then Subsequence(r[1..], s[1..])
    else Subsequence(r, s[1..])
  }

  /** A filter keeps its input's order. */
  lemma {:induction false} FilterIsSubsequence<T(!new)>(s: seq<T>, p: T -> bool)
    ensures Subsequence(Filter(s, p), s)
    decreases |s|
  {
    if |s| > 0 {
      FilterIsSubsequence(s[1..], p);
      var r := Filter(s, p);
      if p(s[0]) {
        assert r[0] == s[0] && r[1..] == Filter(s[1..], p);
      } else {
        assert r == Filter(s[1..], p);
        if |r| > 0 {
          assert r[0] in r && r[0] != s[0];
        }
      }
    }
  }

  /** A filter keeps every copy of a selected value and no copy of any other. */
  lemma {:induction false} FilterMultiset<T(!new)>(s: seq<T>, p: T -> bool, x: T)
    ensures multiset(Filter(s, p))[x] == if p(x) then multiset(s)[x] else 0
    decreases |s|
  {
    if |s| > 0 {
      FilterMultiset(s[1..], p, x);
      assert s == [s[0]] + s[1..];
      var head := if p(s[0]) then [s[0]] else [];
      assert multiset(head + Filter(s[1..], p)) == multiset(head) + multiset(Filter(s[1..], p));
    }
  }

  /** Two filters in a row select what one filter on the conjunction selects. */
  lemma {:induction false} FilterFilter<T(!new)>(s: seq<T>, p: T -> bool, q: T -> bool, both: T -> bool)
    requires forall x :: both(x) == (p(x) && q(x))
    ensures Filter(Filter(s, p), q) == Filter(s, both)
    decreases |s|
  {
    if |s| > 0 {
      FilterFilter(s[1..], p, q, both);
      var head := if p(s[0]) then [s[0]] else [];
      FilterAppend(head, Filter(s[1..], p), q);
    }
  }

  /** A predicate and its negation split a sequence without loss. */
  lemma {:induction false} FilterPartition<T(!new)>(s: seq<T>, p: T -> bool, q: T -> bool)
    requires forall x :: q(x) == !p(x)
    ensures |Filter(s, p)| + |Filter(s, q)| == |s|
    decreases |s|
  {
    if |s| > 0 {
      FilterPartition(s[1..], p, q);
    }
  }

  /** A filter whose predicate holds everywhere selects everything. */
  lemma {:induction false} FilterAll<T(!new)>(s: seq<T>, p: T -> bool)
    requires forall i :: 0 <= i < |s| ==> p(s[i])
    ensures Filter(s, p) == s
    decreases |s|
  {
    if |s| > 0 {
      FilterAll(s[1..], p);
    }
  }

  predicate Distinct<T(==)>(s: seq<T>) {
    forall i, j :: 0 <= i < j < |s| ==> s[i] != s[j]
  }

  /** Position of the first occurrence of `x` in `s`. */
  function IndexOf<T(==)>(s: seq<T>, x: T): (i: nat)
    requires x in s
    ensures i < |s| && s[i] == x
    ensures forall j :: 0 <= j < i ==> s[j] != x
  {
    if s[0] == x then 0 else 1 + IndexOf(s[1..], x)
  }

  lemma IndexOfPrefix<T>(a: seq<T>, b: seq<T>, x: T)
    requires x in a
    ensures x in a + b && IndexOf(a + b, x) == IndexOf(a, x)
  {
    var i := IndexOf(a, x);
    assert (a + b)[i] == x;
    assert forall j :: 0 <= j < |a| ==> (a + b)[j] == a[j];
  }

  lemma IndexOfLast<T>(a: seq<T>, x: T)
    requires x !in a
    ensures IndexOf(a + [x], x) == |a|
  {
    assert (a + [x])[|a|] == x;
    assert forall j :: 0 <= j < |a| ==> (a + [x])[j] == a[j];
  }

  /**
   * Keep-first de-duplication: an element is kept exactly when it does not
   * occur earlier in the sequence.
   */
  function Dedup<T(==,!new)>(s: seq<T>): (d: seq<T>)
    ensures forall x :: x in d <==> x in s
    ensures Distinct(d)
    ensures |d| <= |s|
  {
    if |s| == 0 then []
    else
      var init := s[..|s| - 1];
      var last := s[|s| - 1];
      assert s == init + [last];
      if last in init then Dedup(init) else Dedup(init) + [last]
  }

  /**
   * The kept elements appear in the order of their first occurrences in
   * the input: "keep first" and "order preserved".
   */
  lemma {:induction false} DedupKeepsFirstOrder<T(!new)>(s: seq<T>, x: T, y: T)
    requires x in s && y in s
    ensures x in Dedup(s) && y in Dedup(s)
    ensures IndexOf(Dedup(s), x) < IndexOf(Dedup(s), y) <==> IndexOf(s, x) < IndexOf(s, y)
    decreases |s|
  {
    var init := s[..|s| - 1];
    var last := s[|s| - 1];
    assert s == init + [last];
    var d := Dedup(init);
    if last in init {
      DedupKeepsFirstOrder(init, x, y);
      IndexOfPrefix(init, [last], x);
      IndexOfPrefix(init, [last], y);
    } else {
      assert Dedup(s) == d + [last];
      if x in init {
        IndexOfPrefix(init, [last], x);
        IndexOfPrefix(d, [last], x);
      } else {
        IndexOfLast(init, x);
        IndexOfLast(d, x);
      }
      if y in init {
        IndexOfPrefix(init, [last], y);
        IndexOfPrefix(d, [last], y);
      } else {
        IndexOfLast(init, y);
        IndexOfLast(d, y);
      }
      if x in init && y in init {
        DedupKeepsFirstOrder(init, x, y);
      }
    }
  }

  /** A sequence without repeats is its own de-duplication. */
  lemma {:induction false} DedupOfDistinct<T(!new)>(s: seq<T>)
    requires Distinct(s)
    ensures Dedup(s) == s
    decreases |s|
  {
    if |s| > 0 {
      var init := s[..|s| - 1];
      assert s == init + [s[|s| - 1]];
      assert forall k :: 0 <= k < |init| ==> init[k] == s[k];
      DedupOfDistinct(init);
    }
  }

  /** De-duplication removes something exactly when the input has a repeat. */
  lemma {:induction false} DedupShrinksIffRepeat<T(!new)>(s: seq<T>)
    ensures |Dedup(s)| == |s| <==> Distinct(s)
    decreases |s|
  {
    if Distinct(s) {
      DedupOfDistinct(s);
    } else if |s| > 0 {
      var init := s[..|s| - 1];
      var last := s[|s| - 1];
      assert s == init + [last];
      DedupShrinksIffRepeat(init);
      if last !in init {
        assert !Distinct(init) by {
          var i, j :| 0 <= i < j < |s| && s[i] == s[j];
          assert j < |s| - 1;
          assert init[i] == init[j];
        }
      }
    }
  }

  /**
   * De-duplicating two de-duplicated parts again gives the keep-first
   * de-duplication of their concatenation.
   */
  lemma {:induction false} DedupOfDedupConcat<T(!new)>(a: seq<T>, b: seq<T>)
    ensures Dedup(Dedup(a) + Dedup(b)) == Dedup(a + b)
    decreases |b|
  {
    if |b| == 0 {
      assert a + b == a;
      assert Dedup(a) + Dedup(b) == Dedup(a);
      DedupOfDistinct(Dedup(a));
    } else {
      var init := b[..|b| - 1];
      var last := b[|b| - 1];
      assert b == init + [last];
      assert a + b == (a + init) + [last];
      assert (a + b)[..|a + b| - 1] == a + init;
      DedupOfDedupConcat(a, init);
      var left := Dedup(a) + Dedup(init);
      assert last in left <==> last in a + init;
      if last in init {
        assert Dedup(b) == Dedup(init);
      } else {
        assert Dedup(b) == Dedup(init) + [last];
        assert Dedup(a) + Dedup(b) == left + [last];
        assert (left + [last])[..|left + [last]| - 1] == left;
      }
    }
  }

  /**
   * Filtering by a property of the element and keep-first de-duplication
   * commute.
   */
  lemma {:induction false} DedupFilter<T(!new)>(s: seq<T>, p: T -> bool)
    ensures Dedup(Filter(s, p)) == Filter(Dedup(s), p)
    decreases |s|
  {
    if |s| > 0 {
      var init := s[..|s| - 1];
      var last := s[|s| - 1];
      assert s == init + [last];
      DedupFilter(init, p);
      DedupFilterSnoc(init, last, p);
    }
  }

  /** The step of DedupFilter: one more element at the end. */
  lemma DedupFilterSnoc<T(!new)>(init: seq<T>, last: T, p: T -> bool)
    requires Dedup(Filter(init, p)) == Filter(Dedup(init), p)
    ensures Dedup(Filter(init + [last], p)) == Filter(Dedup(init + [last]), p)
  {
    FilterAppend(init, [last], p);
    DedupSnoc(init, last);
    var fi := Filter(init, p);
    if last !in init {
      FilterAppend(Dedup(init), [last], p);
    }
    if p(last) {
      assert Filter([last], p) == [last];
      assert last in fi <==> last in init;
      DedupSnoc(fi, last);
    } else {
      assert Filter([last], p) == [];
      assert fi + [] == fi;
    }
  }

  /** Dedup of a sequence extended by one element. */
  lemma DedupSnoc<T(!new)>(init: seq<T>, last: T)
    ensures Dedup(init + [last]) == if last in init then Dedup(init) else Dedup(init) + [last]
  {
    var s := init + [last];
    assert s[..|s| - 1] == init;
  }
}

=== FILE: signatures.dfy ===
/**
 * Manual duplicate detection of the ETL cleaner
 * (backend/etl/data_cleaning.py, make_signature and the `seen_signatures`
 * set threaded through process_chunk).
 */
module Signatures {
  import opened Cells

  /** Seven key values, each turned into text with `str()`. */
  datatype Signature = Signature(
    pickupDatetime: string,
    dropoffDatetime: string,
    pickupLatitude: string,
    pickupLongitude: string,
    dropoffLatitude: string,
    dropoffLongitude: string,
    passengerCount: string)

  /**
   * The columns the signature reads. They are looked up by these long
   * names only: a row whose coordinates sit under the short names
   * (`pickup_lat`, ...) contributes "None" for them.
   */
  const SignatureColumns: seq<string> := [
    "pickup_datetime", "dropoff_datetime",
    "pickup_latitude", "pickup_longitude",
    "dropoff_latitude", "dropoff_longitude",
    "passenger_count"]

  function MakeSignature(row: Row): Signature {
    Signature(
      Get(row, "pickup_datetime").text,
      Get(row, "dropoff_datetime").text,
      Get(row, "pickup_latitude").text,
      Get(row, "pickup_longitude").text,
      Get(row, "dropoff_latitude").text,
      Get(row, "dropoff_longitude").text,
      Get(row, "passenger_count").text)
  }

  /** Two rows share a signature exactly when the seven key columns print the same. */
  lemma SignatureEqualIff(a: Row, b: Row)
    ensures MakeSignature(a) == MakeSignature(b) <==>
      forall i :: 0 <= i < |SignatureColumns| ==>
        Get(a, SignatureColumns[i]).text == Get(b, SignatureColumns[i]).text
  {
    if forall i :: 0 <= i < |SignatureColumns| ==>
        Get(a, SignatureColumns[i]).text == Get(b, SignatureColumns[i]).text
    {
      assert SignatureColumns[0] == "pickup_datetime";
      assert SignatureColumns[1] == "dropoff_datetime";
      assert SignatureColumns[2] == "pickup_latitude";
      assert SignatureColumns[3] == "pickup_longitude";
      assert SignatureColumns[4] == "dropoff_latitude";
      assert SignatureColumns[5] == "dropoff_longitude";
      assert SignatureColumns[6] == "passenger_count";
    }
  }

  datatype Checked = Checked(duplicate: bool, seen: set<Signature>)

  /**
   * Look the signature up; a miss records it. The set never shrinks and,
   * after the call, always holds the signature.
   */
  function CheckAndRecord(sig: Signature, seen: set<Signature>): (r: Checked)
    ensures r.duplicate <==> sig in seen
    ensures r.seen == seen + {sig}
  {
    if sig in seen then Checked(true, seen) else Checked(false, seen + {sig})
  }
}

=== FILE: trips.dfy ===
/**
 * Cleaning step of the batch pipeline (backend/data_processing.py,
 * process_data): drop rows missing a critical value, drop exact
 * duplicates keeping the first, keep rows that pass four range filters,
 * then derive duration in minutes, distance and speed in mph.
 */
module Trips {
  import opened Wrappers
  import opened Seqs

  /**
   * One row of the trips file after `read_csv`. A missing value (NaN, NaT)
   * is None; timestamps are seconds. The passenger count and the duration
   * are numbers as pandas reads them, fractional ones included (a column
   * with a missing or fractional value is read as floats).
   */
  datatype Trip = Trip(
    id: Option<string>,
    vendorId: Option<int>,
    pickupDatetime: Option<int>,
    dropoffDatetime: Option<int>,
    passengerCount: Option<real>,
    pickupLongitude: Option<real>,
    pickupLatitude: Option<real>,
    dropoffLongitude: Option<real>,
    dropoffLatitude: Option<real>,
    storeAndFwdFlag: Option<string>,
    tripDuration: Option<real>)

  /** The nine critical columns are all present; vendor and flag may be missing. */
  predicate HasCriticalValues(t: Trip) {
    && t.id.Some? && t.pickupDatetime.Some? && t.dropoffDatetime.Some?
    && t.passengerCount.Some?
    && t.pickupLatitude.Some? && t.pickupLongitude.Some?
    && t.dropoffLatitude.Some? && t.dropoffLongitude.Some?
    && t.tripDuration.Some?
  }

  /**
   * `df.dropna(subset=critical_cols)`: the rows with every critical value,
   * in their original order, repeats included.
   */
  function DropNa(trips: seq<Trip>): (r: seq<Trip>)
    ensures forall t :: t in r <==> t in trips && HasCriticalValues(t)
    ensures forall t :: multiset(r)[t] == if HasCriticalValues(t) then multiset(trips)[t] else 0
    ensures Subsequence(r, trips)
  {
    FilterIsSubsequence(trips, HasCriticalValues);
    forall t
      ensures multiset(Filter(trips, HasCriticalValues))[t] == if HasCriticalValues(t) then multiset(trips)[t] else 0
    {
      FilterMultiset(trips, HasCriticalValues, t);
    }
    Filter(trips, HasCriticalValues)
  }

  const MaxPassengers: real := 6.0
  /** Two hours, in seconds. */
  const MaxDurationS: real := 7200.0

  const BoxMinLat: real := 40.5
  const BoxMaxLat: real := 41.0
  const BoxMinLon: real := -74.5
  const BoxMaxLon: real := -73.5

  /** A comparison with NaN is false, so a missing value never passes a filter. */
  predicate PassengersOk(t: Trip) {
    t.passengerCount.Some? && 0.0 < t.passengerCount.value <= MaxPassengers
  }

  predicate DurationOk(t: Trip) {
    t.tripDuration.Some? && 0.0 < t.tripDuration.value < MaxDurationS
  }

  /** `Series.between(lo, hi)`: both bounds included. */
  predicate Between(x: Option<real>, lo: real, hi: real) {
    x.Some? && lo <= x.value <= hi
  }

  predicate PickupInBox(t: Trip) {
    Between(t.pickupLatitude, BoxMinLat, BoxMaxLat) && Between(t.pickupLongitude, BoxMinLon, BoxMaxLon)
  }

  predicate DropoffInBox(t: Trip) {
    Between(t.dropoffLatitude, BoxMinLat, BoxMaxLat) && Between(t.dropoffLongitude, BoxMinLon, BoxMaxLon)
  }

  /** Everything a row must satisfy to reach the cleaned frame. */
  predicate Valid(t: Trip) {
    && HasCriticalValues(t)
    && PassengersOk(t) && DurationOk(t) && PickupInBox(t) && DropoffInBox(t)
  }

  /** The filters and de-duplication of process_data, in the source's order. */
  function Clean(trips: seq<Trip>): (r: seq<Trip>)
    ensures forall t :: t in r <==> t in trips && Valid(t)
    ensures Distinct(r)
    ensures forall t :: t in r ==>
      && HasCriticalValues(t)
      && 0.0 < t.passengerCount.value <= 6.0
      && 0.0 < t.tripDuration.value < 7200.0
      && 40.5 <= t.pickupLatitude.value <= 41.0 && -74.5 <= t.pickupLongitude.value <= -73.5
      && 40.5 <= t.dropoffLatitude.value <= 41.0 && -74.5 <= t.dropoffLongitude.value <= -73.5
  {
    var unique := Dedup(DropNa(trips));
    var r := Filter(Filter(Filter(Filter(unique, PassengersOk), DurationOk), PickupInBox), DropoffInBox);
    CleanIsDedupOfValid(trips);
    r
  }

  /**
   * The whole chain selects, keep-first and in order, the distinct rows
   * that pass every test: dropping missing values, de-duplicating and
   * filtering could be done in any order.
   */
  lemma CleanIsDedupOfValid(trips: seq<Trip>)
    ensures Filter(Filter(Filter(Filter(Dedup(DropNa(trips)), PassengersOk), DurationOk), PickupInBox), DropoffInBox)
      == Dedup(Filter(trips, Valid))
  {
    var unique := Dedup(DropNa(trips));
    var pd := (t: Trip) => PassengersOk(t) && DurationOk(t);
    var pdp := (t: Trip) => pd(t) && PickupInBox(t);
    var kept := (t: Trip) => pdp(t) && DropoffInBox(t);
    FilterFilter(unique, PassengersOk, DurationOk, pd);
    FilterFilter(unique, pd, PickupInBox, pdp);
    FilterFilter(unique, pdp, DropoffInBox, kept);
    DedupFilter(DropNa(trips), kept);
    FilterFilter(trips, HasCriticalValues, kept, Valid);
  }

  // ---- the counts printed while cleaning ----

  /** The three counts reported: rows dropped for missing values, duplicates removed, rows kept. */
  datatype CleanCounts = CleanCounts(droppedMissing: int, removedDuplicates: int, valid: int)

  /**
   * The counts as the source prints them: the duplicate count is measured
   * from the original length, so it includes the rows `dropna` removed.
   */
  function CountsAsWritten(trips: seq<Trip>): (c: CleanCounts)
    ensures c.droppedMissing == Counts(trips).droppedMissing && c.valid == Counts(trips).valid
    ensures c.removedDuplicates == c.droppedMissing + Counts(trips).removedDuplicates
  {
    var noNa := DropNa(trips);
    CleanCounts(|trips| - |noNa|, |trips| - |Dedup(noNa)|, |Clean(trips)|)
  }

  /** A single row missing its id is reported as one removed duplicate. */
  lemma MissingRowCountedAsDuplicate(t: Trip)
    requires t.id.None?
    ensures Distinct(DropNa([t]))
    ensures CountsAsWritten([t]).removedDuplicates == 1
    ensures Counts([t]).removedDuplicates == 0
  {
    assert DropNa([t]) == [];
  }

  /**
   * The counts with the duplicate count measured after `dropna`: it is
   * zero exactly when the remaining rows are already distinct, and the
   * three stages account for every input row.
   */
  function Counts(trips: seq<Trip>): (c: CleanCounts)
    ensures c.droppedMissing == |trips| - |DropNa(trips)|
    ensures c.removedDuplicates == |DropNa(trips)| - |Dedup(DropNa(trips))|
    ensures c.droppedMissing >= 0 && c.removedDuplicates >= 0 && c.valid >= 0
    ensures c.removedDuplicates == 0 <==> Distinct(DropNa(trips))
    ensures c.droppedMissing + c.removedDuplicates + |Dedup(DropNa(trips))| == |trips|
    ensures c.valid == |Clean(trips)| <= |Dedup(DropNa(trips))|
  {
    var noNa := DropNa(trips);
    var unique := Dedup(noNa);
    DedupShrinksIffRepeat(noNa);
    CleanIsDedupOfValid(trips);
    ValidAfterDedupIsShorter(trips);
    CleanCounts(|trips| - |noNa|, |noNa| - |unique|, |Clean(trips)|)
  }

  lemma ValidAfterDedupIsShorter(trips: seq<Trip>)
    ensures |Clean(trips)| <= |Dedup(DropNa(trips))|
  {
    var unique := Dedup(DropNa(trips));
    var a := Filter(unique, PassengersOk);
    var b := Filter(a, DurationOk);
    var c := Filter(b, PickupInBox);
    assert |Filter(c, DropoffInBox)| <= |c| <= |b| <= |a| <= |unique|;
  }

  // ---- derived features ----

  /**
   * `haversine(lon1, lat1, lon2, lat2)` in miles (Earth radius 3958.8); the
   * trigonometry is a parameter.
   */
  type MilesBetween = (real, real, real, real) -> real

  datatype Metrics = Metrics(durationMin: real, distanceMiles: real, speedMph: real)

  /** What the derived columns need: a positive duration and the four coordinates. */
  predicate Measurable(t: Trip) {
    && t.tripDuration.Some? && t.tripDuration.value > 0.0
    && t.pickupLatitude.Some? && t.pickupLongitude.Some?
    && t.dropoffLatitude.Some? && t.dropoffLongitude.Some?
  }

  /**
   * `trip_duration_min`, `trip_distance` and `speed_mph` of one row: the
   * speed is distance over hours, i.e. distance * 3600 / duration in seconds.
   */
  function DeriveMetrics(miles: MilesBetween, t: Trip): (m: Metrics)
    requires Measurable(t)
    ensures m.durationMin * 60.0 == t.tripDuration.value
    ensures m.distanceMiles
      == miles(t.pickupLongitude.value, t.pickupLatitude.value, t.dropoffLongitude.value, t.dropoffLatitude.value)
    ensures m.speedMph * t.tripDuration.value == m.distanceMiles * 3600.0
  {
    var d := t.tripDuration.value;
    var durationMin := d / 60.0;
    var distance := miles(t.pickupLongitude.value, t.pickupLatitude.value, t.dropoffLongitude.value, t.dropoffLatitude.value);
    var speed := distance / (durationMin / 60.0);
    assert durationMin / 60.0 == d / 3600.0;
    assert speed * d == distance * 3600.0 by {
      assert speed == distance * 3600.0 / d;
    }
    Metrics(durationMin, distance, speed)
  }

  /** Every row the filters keep can be measured. */
  lemma ValidIsMeasurable(t: Trip)
    requires Valid(t)
    ensures Measurable(t)
  {
  }

  /** The derived columns of the cleaned frame, row by row. */
  function DeriveAll(miles: MilesBetween, clean: seq<Trip>): (ms: seq<Metrics>)
    requires forall i :: 0 <= i < |clean| ==> Measurable(clean[i])
    ensures |ms| == |clean|
    ensures forall i :: 0 <= i < |clean| ==> ms[i] == DeriveMetrics(miles, clean[i])
  {
    seq(|clean|, i requires 0 <= i < |clean| => DeriveMetrics(miles, clean[i]))
  }

  /** The `speed_mph` column handed to the anomaly detector. */
  function Speeds(ms: seq<Metrics>): (speeds: seq<real>)
    ensures |speeds| == |ms|
    ensures forall i :: 0 <= i < |ms| ==> speeds[i] == ms[i].speedMph
  {
    seq(|ms|, i requires 0 <= i < |ms| => ms[i].speedMph)
  }
}

=== FILE: wrappers.dfy ===
/** Optional values: a value that may be absent (Python's None, pandas' NaN/NaT). */
module Wrappers {

  datatype Option<+T> = None | Some(value: T) {

    /** Returns the value in Some, or the given default for None */
    function GetOr(default: T): T {
      match this
      case Some(v) => v
      case None => default
    }
  }
}
